=== FILE: README.md ===
# Firecrawl scraper core, modelled in Dafny

`lambda_firecrawl_scraper.py` crawls the JioPay site. It saves each crawled
page as an HTML file. It collects the image URLs found in those pages and
downloads the images. Most of the file is glue around the Firecrawl API,
docling, `requests`, PIL and the file system. This project models the
deterministic logic inside that glue and proves what it guarantees:

- `wrappers.dfy` (`Wrappers`): an `Option` type.
- `text.dfy` (`Text`): string predicates that stand in for Python's
  `startswith`, `endswith` and `in`. It also has ASCII `lower()` and decimal
  printing of page numbers.
- `page_names.dfy` (`PageNames`): `_generate_filename`. It strips the
  `http://`/`https://` markers, maps each character outside `[A-Za-z0-9_-]`
  to `_`, cuts the result to 100 characters and appends `_<timestamp>.<ext>`.
- `image_names.dfy` (`ImageNames`): `_generate_image_filename`. It chooses
  the extension from the content type or the URL path and builds
  `img_<hash12>_<timestamp>.<ext>`.
- `image_urls.dfy` (`ImageUrls`): the `_is_valid_image_url` rule chain, and
  the normalisation and set collection of `extract_image_urls_from_html`.
- `image_downloads.dfy` (`ImageDownloads`): the `downloaded_images` and
  `failed_images` bookkeeping of `download_image` and
  `extract_and_download_images`.
- `html_pages.dfy` (`HtmlPages`): the page filter of `save_html_files`,
  which decides skipped, failed or saved, and the paths it saves to.

Everything the code reads from the outside world is a parameter:

- the robots.txt verdict: `allowed`, a function, or a boolean per download;
- the clock: `stamp` and `stamps`;
- the MD5 digest prefix: `hash12` and `digest`;
- `urljoin(base_url, ·)`: `join`;
- the HTTP response and the outcome of `Image.open`: `Attempt` and `Response`;
- the strings BeautifulSoup and the background-image regex extract: `ImgTag`
  and `backgrounds`.

In `save_html_files` only a Document object whose metadata carries a
`sourceURL` is put to the robots check. A dictionary page is never checked,
and neither is a page that gets the default `https://www.jiopay.com/page_<i>`
URL. The model follows the code here, so `HtmlPages.Classify` keeps an
allowed-or-not dictionary page whenever its HTML is non-empty.

## Model

| member | source | states |
|---|---|---|
| PageNames.StripSchemes | lambda_firecrawl_scraper.py:76 | Deleting scheme markers never lengthens the URL and introduces no character that was not in it |
| PageNames.StripLeadingHttp | lambda_firecrawl_scraper.py:76 | A leading `http://` is deleted and the rest is processed as if it stood alone |
| PageNames.StripLeadingHttps | lambda_firecrawl_scraper.py:76 | A leading `https://` is deleted and the rest is processed as if it stood alone |
| PageNames.StripSchemesKeepsHFreePrefix | lambda_firecrawl_scraper.py:76 | Text without an `h` cannot begin a marker: it is kept verbatim in front of whatever the rest of the URL becomes |
| PageNames.StripSchemesIdentity | lambda_firecrawl_scraper.py:76 | A URL with no `:` (or no `h`) has no marker to delete and comes back unchanged |
| PageNames.StripSchemesIsOnePass | lambda_firecrawl_scraper.py:76 | The substitution is one left-to-right pass: `ht` + `http://` + rest loses only the inner marker, so a marker formed by the deletion survives |
| PageNames.Sanitise | lambda_firecrawl_scraper.py:77 | The sanitised string has the same length, and each position holds the original character when it is in `[A-Za-z0-9_-]` and `_` otherwise |
| PageNames.SanitiseIdempotent | lambda_firecrawl_scraper.py:77 | Every sanitised character is safe, and sanitising a second time changes nothing |
| PageNames.SanitiseAppend | lambda_firecrawl_scraper.py:77 | Sanitising distributes over concatenation |
| PageNames.Stem | lambda_firecrawl_scraper.py:76-80 | The stem has at most 100 characters, all of them in `[A-Za-z0-9_-]` |
| PageNames.StemShape | lambda_firecrawl_scraper.py:76-80 | The stem has length min(len(s), 100) for the marker-free URL s; each position holds the character of s when it is safe and `_` otherwise |
| PageNames.StemOfShort | lambda_firecrawl_scraper.py:78-80 | A marker-free URL of at most 100 characters is not truncated |
| PageNames.StemIdempotent | lambda_firecrawl_scraper.py:76-80 | Applying the stem computation to a stem returns it unchanged |
| PageNames.StemIgnoresWhichUnsafeChar | lambda_firecrawl_scraper.py:76-82 | Colon-free URLs that differ only in which unsafe characters they hold get the same stem, so such pages saved in the same second collide on one file name |
| PageNames.SharedHeadStemsDiffer | lambda_firecrawl_scraper.py:76-80 | URLs that reduce to a common head plus different safe tails, within 100 characters, get different stems |
| PageNames.PageFilename | lambda_firecrawl_scraper.py:81-82 | The page file name begins with the stem and `_`, ends with `.` and the extension, and is two characters longer than stem, timestamp and extension together |
| PageNames.SplitPageFilenameRoundTrip | lambda_firecrawl_scraper.py:81-82 | A page file name is exactly stem, `_`, timestamp, `.` and extension: splitting at the first dot gives all three back |
| PageNames.DistinctStemsDistinctNames | lambda_firecrawl_scraper.py:81-82 | With the same timestamp and extension, whatever that timestamp is, different stems give different file names |
| ImageNames.ExtFromContentType | lambda_firecrawl_scraper.py:90-102 | When the content type names any of jpeg/jpg, png, gif, webp or svg, the result is a named one and none whose test comes earlier is named; otherwise the result is `jpg` |
| ImageNames.ExtFromSuffix | lambda_firecrawl_scraper.py:107-118 | On a lower-cased path, when some suffix of `.jpg`/`.jpeg`, `.png`, `.gif`, `.webp`, `.svg` matches, the result is the earliest matching one; otherwise it is `jpg` |
| ImageNames.ExtFromPath | lambda_firecrawl_scraper.py:103-118 | The suffix tests apply to the lower-cased path: the earliest matching suffix gives the extension, and `jpg` when none matches |
| ImageNames.ExtensionFor | lambda_firecrawl_scraper.py:89-118 | A content type that is `None` or `""` sends the choice to the path; any other content type decides it alone |
| ImageNames.ContentTypeOverridesPath | lambda_firecrawl_scraper.py:89-102 | With a non-empty content type, the path has no influence on the extension |
| ImageNames.SvgContentType | lambda_firecrawl_scraper.py:99-100 | `image/svg+xml` gives `svg` |
| ImageNames.JpegBeatsPng | lambda_firecrawl_scraper.py:91-94 | Every content type naming both jpeg and png gives `jpg` |
| ImageNames.UpperCaseContentType | lambda_firecrawl_scraper.py:90-102 | The content-type tests are case-sensitive, so `IMAGE/PNG` falls back to `jpg` |
| ImageNames.BmpContentType | lambda_firecrawl_scraper.py:90-102 | `image/bmp` falls back to `jpg`; no `bmp` extension exists |
| ImageNames.UpperCasePath | lambda_firecrawl_scraper.py:105-110 | The path test ignores case: `/a/B.PNG` gives `png` |
| ImageNames.BmpPath | lambda_firecrawl_scraper.py:105-118 | Every path whose lower-cased form ends in `.bmp` gets the default `jpg` |
| ImageNames.ImageFilename | lambda_firecrawl_scraper.py:120-121 | The image file name begins with `img_`, the digest and `_`, ends with `.` and the extension name, and is six characters longer than its three parts |
| ImageNames.ParseImageFilenameRoundTrip | lambda_firecrawl_scraper.py:120-121 | An image file name starts with `img_` and the 12-character digest, ends with one of the five extensions, and yields digest, timestamp and extension back |
| ImageUrls.IsValidImageUrl | lambda_firecrawl_scraper.py:123-148 | The empty URL, a URL starting with `data:` and a URL whose lower-cased form contains `1x1`, `1px` or `pixel` are rejected; an accepted URL has an image extension or keyword |
| ImageUrls.AcceptanceAfterRejections | lambda_firecrawl_scraper.py:137-148 | Past the rejections, a URL is accepted exactly when its lower-cased form ends in one of the seven extensions or contains one of the four keywords |
| ImageUrls.ValidityIgnoresCase | lambda_firecrawl_scraper.py:125-148 | Unless its lower-cased form starts with `data:`, a URL and its lower-cased form get the same verdict |
| ImageUrls.DataPrefixIsCaseSensitive | lambda_firecrawl_scraper.py:129-131 | `DATA:image/png` is accepted while `data:image/png` is rejected |
| ImageUrls.TinyMarkerBeatsExtension | lambda_firecrawl_scraper.py:133-142 | A `1x1` URL ending in `.png` is rejected, because the tiny-image rule comes first |
| ImageUrls.Normalise | lambda_firecrawl_scraper.py:163-170 | `//` URLs get `https:` in front and become absolute; absolute URLs are unchanged; every other URL goes to `urljoin` |
| ImageUrls.NormaliseIdempotent | lambda_firecrawl_scraper.py:163-170 | When `urljoin` yields an absolute URL, normalising a second time changes nothing |
| ImageUrls.NormalisePreservesValidity | lambda_firecrawl_scraper.py:161-172 | Putting `https:` in front of a valid protocol-relative URL keeps it valid |
| ImageUrls.Candidates | lambda_firecrawl_scraper.py:156-198 | The candidates are exactly the `src` and `data-src` values of the tags and the background-image URLs |
| ImageUrls.CollectImageUrls | lambda_firecrawl_scraper.py:152-204 | The collected set is exactly the normalised forms of the valid candidates; it is no larger than the candidate list, and it is absolute when `urljoin` always is |
| ImageUrls.CollectedAbsolute | lambda_firecrawl_scraper.py:163-172 | When `urljoin` always yields an absolute URL, every collected URL is absolute |
| ImageUrls.ExtractImageUrls | lambda_firecrawl_scraper.py:150-204 | Every valid `src`, `data-src` and background URL appears normalised in the result, and nothing else does |
| ImageDownloads.DownloadImage | lambda_firecrawl_scraper.py:210-276 | The URL lands in exactly one of the two sets. A path is returned exactly when the URL is allowed, the request succeeds, the lowered content type starts with `image/` and the image opens at 10 by 10 or larger; the path is `images/` plus the image file name |
| ImageDownloads.DownloadKeepsLedgerDisjoint | lambda_firecrawl_scraper.py:210-276 | For a new URL, the two sets stay disjoint, both only grow, and together they gain exactly that URL |
| ImageDownloads.ImagePath | lambda_firecrawl_scraper.py:236 | The saved path is `images/` followed by the file name |
| ImageDownloads.Basename | lambda_firecrawl_scraper.py:303 | The basename is a suffix of the path with no `/`, and it is either the whole path or preceded by a `/`: the text after the last `/` |
| ImageDownloads.BasenameOfImagePath | lambda_firecrawl_scraper.py:303 | The basename of a saved image's path is its file name |
| ImageDownloads.Jobs | lambda_firecrawl_scraper.py:284-294 | The jobs are exactly the (page, URL) pairs of the nested loop |
| ImageDownloads.Step | lambda_firecrawl_scraper.py:294-304 | A URL already recorded either way is skipped with no effect. A new URL goes through `download_image`: the ledger is the one it leaves, and one info entry, carrying the page, the URL, the returned path and that path's file name, appears exactly when a path comes back |
| ImageDownloads.RunJobs | lambda_firecrawl_scraper.py:284-304 | Running the jobs in order keeps the ledger, attempt and info invariants. Each entry also keeps its origin: the path `download_image` returned for its URL, the file name from that URL's digest, clock reading and content type, and the first job listing the URL |
| ImageDownloads.AllJobsRun | lambda_firecrawl_scraper.py:278-306 | After the whole loop, the ledger, attempt and info invariants give the promises of `extract_and_download_images` |
| ImageDownloads.ExtractAndDownloadImages | lambda_firecrawl_scraper.py:278-306 | Both sets only grow and stay disjoint, and they gain exactly the URLs found. Each new URL is attempted exactly once and no old one ever; there is one info entry per newly downloaded URL. Each entry's path is the one `download_image` returned for its URL: `images/img_<digest>_<stamp>.<ext>`, with the extension from the lowered content type. Its `source_html` is the first page that lists the URL |
| HtmlPages.Classify | lambda_firecrawl_scraper.py:369-394 | Only unknown page types are skipped. A page is kept exactly when its html is non-empty and it is not a Document whose own `sourceURL` robots.txt disallows. The recorded URL is the page's `sourceURL`, or `base_url/page_<i>` |
| HtmlPages.DefaultUrl | lambda_firecrawl_scraper.py:381 | The default URL is `https://www.jiopay.com/page_` followed by decimal digits that read back as the page index |
| HtmlPages.HtmlPath | lambda_firecrawl_scraper.py:398 | The saved path is `html/` followed by the file name |
| HtmlPages.KeptIndices | lambda_firecrawl_scraper.py:369-404 | The indices of the kept pages, each exactly once, in crawl order |
| HtmlPages.RejectsStep | lambda_firecrawl_scraper.py:376-394 | One more page adds at most its own rejected URL to the failed set |
| HtmlPages.SaveHtmlFiles | lambda_firecrawl_scraper.py:364-407 | Saves one path per kept page, in crawl order, never more paths than pages. `failed_urls` only grows, and by exactly the URLs of the rejected pages |
| HtmlPages.DefaultUrlStripped | lambda_firecrawl_scraper.py:381 | The default page URL without its scheme is `www.jiopay.com/page_` plus the page number |
| HtmlPages.DefaultPathsDistinct | lambda_firecrawl_scraper.py:381-398 | Two different pages that get default URLs are saved under different paths, even within the same second |
| Text.Lower | lambda_firecrawl_scraper.py:106 | Lower-casing keeps the length and maps each character to its lower-case form |
| Text.StartsWithIff | lambda_firecrawl_scraper.py:129 | `startswith` holds exactly when the string is long enough and agrees with the prefix character by character |
| Text.EndsWithIff | lambda_firecrawl_scraper.py:141 | `endswith` holds exactly when the string is long enough and its last characters agree with the suffix one by one |
| Text.ContainsIffOccurs | lambda_firecrawl_scraper.py:145 | The substring test `k in s` holds exactly when `k` occurs at some index of `s` |
| Text.LowerIdempotent | lambda_firecrawl_scraper.py:106 | Lower-casing twice is lower-casing once |
| Text.NatToString | lambda_firecrawl_scraper.py:381 | The decimal form of a page number is non-empty, all digits and without a leading zero |
| Text.ParseNatToString | lambda_firecrawl_scraper.py:381 | Reading back the decimal form of a page number gives the number |
| Text.NatToStringInjective | lambda_firecrawl_scraper.py:381 | Different page numbers print differently |

## Left out

- File and network I/O: writing HTML and image files, `os.makedirs`, `os.remove`, streaming the HTTP body. The model records only the outcome each step leaves in the sets and lists.
- The Firecrawl crawl (`crawl_entire_website`) and the `crawled_urls` set: a remote API whose behaviour is not visible here. The crawl result is an input to `SaveHtmlFiles`.
- docling conversion and the text files (`extract_text_with_docling`, `save_text_file`, `process_html_files_with_docling`): a foreign library plus file I/O.
- Loading robots.txt and `can_fetch` (`_setup_robots_compliance`, `_is_url_allowed`, lines 51-71): network access and a standard-library parser. The verdict is a parameter. The code fails open (it returns true when robots.txt could not be loaded or `can_fetch` raises), so any verdict function is a possible behaviour.
- `urljoin`, `urlparse`, the BeautifulSoup traversal and the background-image regex: library behaviour. Their results (`join`, the path, the candidate strings) are inputs.
- MD5 and `datetime.now()`: the 12-character digest prefix and the timestamp are inputs.
- `lambda_handler`, environment variables and logging: plumbing.
- Python's `str.lower()` is Unicode-aware. `Text.Lower` maps only ASCII letters, and every keyword and extension the code tests for is ASCII.
- ImageUrls.ExtractImageUrls: any exception inside the `try` of `extract_image_urls_from_html` (lines 154-208) makes it log the error and return an empty list for the whole page. That includes a parser failure, and also `urljoin` raising on a valid candidate, such as `ValueError` for `ftp://[x/a.png`. The model's `join` is total and never fails, so it keeps every other valid candidate where the source would drop them all.
- The order in which `list(image_urls)` hands out the URLs of a page is unspecified in Python. It is an input sequence here.
- HtmlPages.Classify: a `sourceURL` that is present but `None` is not modelled. If `_is_url_allowed(None)` answers false (for example when robots.txt disallows everything, since `can_fetch` then answers before looking at the URL), the source records `None` as a failed URL whatever the HTML. Otherwise it records `None` as failed when the HTML is empty, or raises when it builds the file name. A dictionary page whose `metadata` is `None` is not modelled either; the source raises on it. Such pages are outside `PageData`.
- HtmlPages.SaveHtmlFiles: an exception raised part-way through the loop, for example a failed write, is re-raised by the source after earlier pages were saved. The model has no partial run.
- ImageDownloads.ExtractAndDownloadImages: exceptions from reading an HTML file are re-raised by the source and are not modelled. The list of attempted URLs is a ghost out-parameter.
- ImageDownloads.Step: the info entry's `filename` is built directly as the image file name rather than with `os.path.basename`. `BasenameOfImagePath` shows the two agree whenever the digest and the timestamp contain no `/`, which holds for hex digests and `%Y%m%d_%H%M%S` stamps.
- HtmlPages.DefaultPathsDistinct: proved only for page numbers of at most 80 digits. Longer default URLs are cut at 100 characters and can collide.
- PageNames.IsStamp: assumes a four-digit year, so a timestamp has exactly 15 characters.

=== FILE: html_pages.dfy ===
/** `save_html_files`: each crawled page is either skipped, rejected (its URL
    recorded in `failed_urls`) or saved under `html/` with a name from
    `_generate_filename`. The robots verdict and the clock are inputs; the
    file write itself is not modelled. */
module HtmlPages {
  import opened Wrappers
  import opened Text
  import opened PageNames

  /** The scraper's `base_url`. */
  const BaseUrl: string := "https://www.jiopay.com"

  /** The scraper's `html_folder`. */
  const HtmlFolder: string := "html"

  /** One entry of the crawl result, as `save_html_files` tells them apart. */
  datatype PageData =
      /** An object with `metadata` and `html` attributes. `sourceUrl` is
          `None` when the metadata is falsy or has no `sourceURL`; an absent
          `html` value is the empty string. */
    | DocumentPage(sourceUrl: Option<string>, html: string)
      /** A dictionary; `sourceUrl` is `None` when there is no
          `metadata.sourceURL` key, and `html` is `""` when the key is absent. */
    | DictPage(sourceUrl: Option<string>, html: string)
      /** Anything else. */
    | OtherPage

  /** What happens to one page. */
  datatype Outcome =
    | Skipped                           // unknown page type: nothing recorded
    | Rejected(url: string)             // recorded in `failed_urls`
    | Kept(url: string, html: string)   // written to a file

  /** `f"{self.base_url}/page_{i}"`, the URL of a page that names none. */
  function DefaultUrl(i: nat): (r: string)
    ensures StartsWith(r, BaseUrl + "/page_")
    ensures var digits := r[|BaseUrl| + 6..];
      (forall k :: 0 <= k < |digits| ==> IsDigit(digits[k])) && ParseNat(digits) == i
  {
    var digits := NatToString(i);
    ParseNatToString(i);
    var r := BaseUrl + "/page_" + digits;
    assert r[|BaseUrl| + 6..] == digits;
    r
  }

  /** `os.path.join(self.html_folder, filename)`. */
  function HtmlPath(filename: string): (r: string)
    ensures StartsWith(r, "html/")
    ensures r[|HtmlFolder| + 1..] == filename
  {
    HtmlFolder + "/" + filename
  }

  /** The branches of the loop body for page `i`. A page is kept exactly
      when it is of a known type, has non-empty HTML and is not a document
      whose own source URL robots.txt disallows; pages of unknown type are
      the only ones skipped. A dictionary page is never put to the robots
      check. */
  function Classify(i: nat, page: PageData, allowed: string -> bool): (o: Outcome)
    ensures o.Skipped? <==> page.OtherPage?
    ensures o.Kept? <==>
      && !page.OtherPage?
      && page.html != ""
      && !(page.DocumentPage? && page.sourceUrl.Some? && !allowed(page.sourceUrl.value))
    ensures !o.Skipped? ==> o.url == page.sourceUrl.GetOr(DefaultUrl(i))
    ensures o.Kept? ==> o.html == page.html
  {
    match page
    case DocumentPage(source, html) =>
      if source.Some? && !allowed(source.value) then Rejected(source.value)
      else
        var url := if source.Some? then source.value else DefaultUrl(i);
        if html == "" then Rejected(url) else Kept(url, html)
    case DictPage(source, html) =>
      var url := if source.Some? then source.value else DefaultUrl(i);
      if html == "" then Rejected(url) else Kept(url, html)
    case OtherPage => Skipped
  }

  /** The indices below `n` of the pages that are kept, in increasing
      order. */
  function KeptIndices(pages: seq<PageData>, allowed: string -> bool, n: nat): (r: seq<nat>)
    requires n <= |pages|
    ensures |r| <= n
    ensures forall k :: 0 <= k < |r| ==> r[k] < n && Classify(r[k], pages[r[k]], allowed).Kept?
    ensures forall i :: 0 <= i < n && Classify(i, pages[i], allowed).Kept? ==> i in r
    ensures forall k, m :: 0 <= k < m < |r| ==> r[k] < r[m]
  {
    if n == 0 then []
    else
      var before := KeptIndices(pages, allowed, n - 1);
      if Classify(n - 1, pages[n - 1], allowed).Kept? then before + [n - 1] else before
  }

  /** Page `i` among the first `n` is rejected with URL `u`. */
  ghost predicate Rejects(pages: seq<PageData>, allowed: string -> bool, n: nat, u: string)
    requires n <= |pages|
  {
    exists i :: 0 <= i < n && Classify(i, pages[i], allowed) == Rejected(u)
  }

  /** One more page adds at most its own rejected URL. */
  lemma RejectsStep(pages: seq<PageData>, allowed: string -> bool, n: nat)
    requires n < |pages|
    ensures forall u :: Rejects(pages, allowed, n + 1, u) <==>
      Rejects(pages, allowed, n, u) || Classify(n, pages[n], allowed) == Rejected(u)
  {
    forall u | Rejects(pages, allowed, n + 1, u)
      ensures Rejects(pages, allowed, n, u) || Classify(n, pages[n], allowed) == Rejected(u)
    {
      var i :| 0 <= i < n + 1 && Classify(i, pages[i], allowed) == Rejected(u);
    }
  }

  /** The path saved for kept page `i`, written with the clock reading
      `stamp`. */
  function SavedPath(pages: seq<PageData>, allowed: string -> bool, i: nat, stamp: string): string
    requires i < |pages| && Classify(i, pages[i], allowed).Kept?
  {
    HtmlPath(PageFilename(Classify(i, pages[i], allowed).url, "html", stamp))
  }

  /** `saved` holds the paths of the kept pages among the first `n`. */
  ghost predicate SavedSoFar(
    pages: seq<PageData>, allowed: string -> bool, stamps: nat -> string, n: nat, saved: seq<string>)
    requires n <= |pages|
  {
    && |saved| == |KeptIndices(pages, allowed, n)|
    && forall k :: 0 <= k < |saved| ==>
         var i := KeptIndices(pages, allowed, n)[k];
         saved[k] == SavedPath(pages, allowed, i, stamps(i))
  }

  /** `failed'` is `failed` and the URLs rejected among the first `n`
      pages. */
  ghost predicate FailedSoFar(
    pages: seq<PageData>, allowed: string -> bool, n: nat, failed: set<string>, failed': set<string>)
    requires n <= |pages|
  {
    forall u :: u in failed' <==> u in failed || Rejects(pages, allowed, n, u)
  }

  /** Handling page `n` keeps `SavedSoFar`. */
  lemma SavedStep(
    pages: seq<PageData>, allowed: string -> bool, stamps: nat -> string, n: nat, saved: seq<string>)
    requires n < |pages| && SavedSoFar(pages, allowed, stamps, n, saved)
    ensures var o := Classify(n, pages[n], allowed);
      SavedSoFar(pages, allowed, stamps, n + 1,
        if o.Kept? then saved + [HtmlPath(PageFilename(o.url, "html", stamps(n)))] else saved)
  {
  }

  /** Handling page `n` keeps `FailedSoFar`. */
  lemma FailedStep(
    pages: seq<PageData>, allowed: string -> bool, n: nat, failed: set<string>, failed': set<string>)
    requires n < |pages| && FailedSoFar(pages, allowed, n, failed, failed')
    ensures var o := Classify(n, pages[n], allowed);
      FailedSoFar(pages, allowed, n + 1, failed, if o.Rejected? then failed' + {o.url} else failed')
  {
    RejectsStep(pages, allowed, n);
  }

  /** The loop body of `save_html_files` for page `i`: a kept page's path
      joins `saved`, a rejected page's URL joins `failed'`. */
  method HandlePage(
    pages: seq<PageData>, allowed: string -> bool, stamps: nat -> string, i: nat,
    failed: set<string>, saved: seq<string>, failed': set<string>)
    returns (saved': seq<string>, failed'': set<string>)
    requires i < |pages|
    requires SavedSoFar(pages, allowed, stamps, i, saved)
    requires FailedSoFar(pages, allowed, i, failed, failed')
    ensures SavedSoFar(pages, allowed, stamps, i + 1, saved')
    ensures FailedSoFar(pages, allowed, i + 1, failed, failed'')
  {
    SavedStep(pages, allowed, stamps, i, saved);
    FailedStep(pages, allowed, i, failed, failed');
    saved', failed'' := saved, failed';
    match Classify(i, pages[i], allowed) {
      case Skipped =>
      case Rejected(url) =>
        failed'' := failed' + {url};
      case Kept(url, _) =>
        saved' := saved + [HtmlPath(PageFilename(url, "html", stamps(i)))];
    }
  }

  /** `save_html_files(crawl_data)` with `failed_urls` before the call and
      `stamps(i)` the clock reading while page `i` is handled. The saved
      list holds one path per kept page, in crawl order, so it is never
      longer than the crawl; `failed_urls` grows by exactly the URLs of the
      rejected pages. */
  method SaveHtmlFiles(pages: seq<PageData>, failed: set<string>, allowed: string -> bool, stamps: nat -> string)
    returns (saved: seq<string>, failed': set<string>)
    ensures |saved| <= |pages|
    ensures failed <= failed'
    ensures forall u :: u in failed' <==> u in failed || Rejects(pages, allowed, |pages|, u)
    ensures |saved| == |KeptIndices(pages, allowed, |pages|)|
    ensures forall k :: 0 <= k < |saved| ==>
      var i := KeptIndices(pages, allowed, |pages|)[k];
      saved[k] == SavedPath(pages, allowed, i, stamps(i))
  {
    saved, failed' := [], failed;
    var i := 0;
    while i < |pages|
      invariant 0 <= i <= |pages|
      invariant SavedSoFar(pages, allowed, stamps, i, saved)
      invariant FailedSoFar(pages, allowed, i, failed, failed')
    {
      saved, failed' := HandlePage(pages, allowed, stamps, i, failed, saved, failed');
      i := i + 1;
    }
  }

  /** The scheme-free part of `base_url + "/page_"`. */
  const DefaultHead: string := "www.jiopay.com/page_"

  lemma DefaultUrlPieces(digits: string)
    ensures BaseUrl + "/page_" + digits == "https://" + (DefaultHead + digits)
  {
  }

  /** A default page URL without its scheme. */
  lemma DefaultUrlStripped(i: nat)
    ensures StripSchemes(DefaultUrl(i)) == DefaultHead + NatToString(i)
  {
    var digits := NatToString(i);
    var rest := DefaultHead + digits;
    DefaultUrlPieces(digits);
    StripLeadingHttps(rest);
    assert ':' !in rest by {
      assert ':' !in DefaultHead;
      assert forall k :: 0 <= k < |digits| ==> digits[k] != ':';
    }
    StripSchemesIdentity(rest);
  }

  /** Two pages that name no URL and are saved within the same second
      still get different files. */
  lemma DefaultPathsDistinct(i: nat, j: nat, stamp: string)
    requires i != j && |NatToString(i)| <= 80 && |NatToString(j)| <= 80
    requires IsStamp(stamp)
    ensures HtmlPath(PageFilename(DefaultUrl(i), "html", stamp)) != HtmlPath(PageFilename(DefaultUrl(j), "html", stamp))
  {
    var di, dj := NatToString(i), NatToString(j);
    if di == dj {
      NatToStringInjective(i, j);
      assert false;
    }
    DefaultUrlStripped(i);
    DefaultUrlStripped(j);
    SharedHeadStemsDiffer(DefaultUrl(i), DefaultUrl(j), DefaultHead, di, dj);
    DistinctStemsDistinctNames(DefaultUrl(i), DefaultUrl(j), "html", stamp);
    var pi := HtmlPath(PageFilename(DefaultUrl(i), "html", stamp));
    var pj := HtmlPath(PageFilename(DefaultUrl(j), "html", stamp));
    assert pi[|HtmlFolder| + 1..] == PageFilename(DefaultUrl(i), "html", stamp);
    assert pj[|HtmlFolder| + 1..] == PageFilename(DefaultUrl(j), "html", stamp);
  }
}

=== FILE: image_downloads.dfy ===
/** The bookkeeping of `download_image` and `extract_and_download_images`:
    every attempt ends with the URL recorded as downloaded or as failed, and
    a URL already recorded either way is never fetched again. The robots
    check, the HTTP response, writing the file, `Image.open`, the MD5 digest
    and the clock are inputs here. */
module ImageDownloads {
  import opened Wrappers
  import opened Text
  import opened ImageNames

  /** The folder images are saved in. */
  const ImagesFolder: string := "images"

  /** Smallest width and height kept; smaller images are taken for
      tracking pixels. */
  const MinSide: int := 10

  /** What happened to the saved file. */
  datatype Probe =
    | WriteFailed                     // writing the file raised
    | Unreadable                      // `Image.open` raised
    | Opened(width: int, height: int) // `img.size`

  /** What `requests.get(...)` and `raise_for_status()` gave. */
  datatype Response =
    | RequestFailed                             // a `RequestException` was raised
    | Responded(contentType: string, probe: Probe) // the `content-type` header, `""` when absent

  /** Everything one download depends on besides the URL: the robots
      verdict, the response and the clock reading for the file name. */
  datatype Attempt = Attempt(allowed: bool, response: Response, stamp: string)

  /** The scraper's `downloaded_images` and `failed_images` sets. */
  datatype Ledger = Ledger(downloaded: set<string>, failed: set<string>) {

    /** Every URL this ledger has seen, either way. */
    function Seen(): set<string> {
      downloaded + failed
    }

    /** No URL is recorded both ways. */
    predicate Disjoint() {
      downloaded !! failed
    }
  }

  /** A ledger after one `download_image` call and the call's return
      value: the saved path, or `None`. */
  datatype Download = Download(ledger: Ledger, path: Option<string>)

  /** `os.path.join(images_folder, filename)`. */
  function ImagePath(filename: string): (r: string)
    ensures StartsWith(r, "images/")
    ensures EndsWith(r, filename) && |r| == |filename| + 7
  {
    ImagesFolder + "/" + filename
  }

  /** `download_image(image_url)`: each return path records the URL in
      exactly one of the two sets; only an allowed URL that answers with an
      `image/` content type (tested after lowering) and opens as an image
      of at least 10 by 10 pixels counts as downloaded. The file name's
      extension comes from the lowered content type. */
  function DownloadImage(ledger: Ledger, url: string, attempt: Attempt, hash12: string): (d: Download)
    ensures d.path.Some? ==> d.ledger == Ledger(ledger.downloaded + {url}, ledger.failed)
    ensures d.path.None? ==> d.ledger == Ledger(ledger.downloaded, ledger.failed + {url})
    ensures d.path.Some? <==>
      && attempt.allowed
      && attempt.response.Responded?
      && StartsWith(Lower(attempt.response.contentType), "image/")
      && attempt.response.probe.Opened?
      && attempt.response.probe.width >= MinSide
      && attempt.response.probe.height >= MinSide
    ensures d.path.Some? ==>
      d.path.value == ImagePath(ImageFilename(hash12, attempt.stamp, ExtFromContentType(Lower(attempt.response.contentType))))
  {
    var failed := Download(Ledger(ledger.downloaded, ledger.failed + {url}), None);
    if !attempt.allowed then failed
    else
      match attempt.response
      case RequestFailed => failed
      case Responded(header, probe) =>
        var contentType := Lower(header);
        if !StartsWith(contentType, "image/") then failed
        else
          var filename := ImageFilename(hash12, attempt.stamp, ExtensionFor(Some(contentType), ""));
          match probe
          case WriteFailed => failed
          case Unreadable => failed
          case Opened(width, height) =>
            if width < MinSide || height < MinSide then failed
            else Download(Ledger(ledger.downloaded + {url}, ledger.failed), Some(ImagePath(filename)))
  }

  /** A URL recorded in neither set before the call is recorded in exactly
      one afterwards, so the two sets stay disjoint and both only grow. */
  lemma DownloadKeepsLedgerDisjoint(ledger: Ledger, url: string, attempt: Attempt, hash12: string)
    requires ledger.Disjoint() && url !in ledger.Seen()
    ensures var after := DownloadImage(ledger, url, attempt, hash12).ledger;
      && after.Disjoint()
      && (url in after.downloaded) != (url in after.failed)
      && ledger.downloaded <= after.downloaded && ledger.failed <= after.failed
      && after.Seen() == ledger.Seen() + {url}
  {
  }

  /** `os.path.basename`: the text after the last `/`, or the whole path
      when it has none. */
  function Basename(path: string): (r: string)
    ensures '/' !in r
    ensures EndsWith(path, r)
    ensures |r| == |path| || path[|path| - |r| - 1] == '/'
  {
    if |path| == 0 then ""
    else if path[|path| - 1] == '/' then ""
    else
      var init := path[..|path| - 1];
      var r := Basename(init) + [path[|path| - 1]];
      assert path[|path| - |r|..] == init[|init| - |r| + 1..] + [path[|path| - 1]];
      r
  }

  /** The basename of a saved image is its file name. */
  lemma {:induction false} BasenameOfImagePath(filename: string)
    requires '/' !in filename
    ensures Basename(ImagePath(filename)) == filename
    decreases |filename|
  {
    if |filename| > 0 {
      var p := ImagePath(filename);
      var init := filename[..|filename| - 1];
      var last := filename[|filename| - 1];
      assert p[|p| - 1] == last;
      assert last != '/' by {
        assert last in filename;
      }
      assert p[..|p| - 1] == ImagePath(init);
      assert '/' !in init by {
        assert forall c :: c in init ==> c in filename;
      }
      BasenameOfImagePath(init);
      calc {
        Basename(p);
        Basename(p[..|p| - 1]) + [last];
        init + [last];
        { assert filename == init + [last]; }
        filename;
      }
    } else {
      assert ImagePath(filename)[|ImagePath(filename)| - 1] == '/';
    }
  }

  /** The URLs found in one saved HTML page (the list returned by
      `extract_image_urls_from_html`). */
  datatype PageImages = PageImages(htmlFile: string, imageUrls: seq<string>)

  /** One step of the nested loop: an image URL and the page it was found
      on. */
  datatype Job = Job(htmlFile: string, imageUrl: string)

  /** The entry appended to `downloaded_images_info` for each saved image. */
  datatype ImageInfo = ImageInfo(sourceHtml: string, imageUrl: string, localPath: string, filename: string)

  /** The (URL, page) pairs of one page, in list order. */
  function PageJobs(page: PageImages): (r: seq<Job>)
    ensures |r| == |page.imageUrls|
    ensures forall k :: 0 <= k < |r| ==> r[k] == Job(page.htmlFile, page.imageUrls[k])
  {
    seq(|page.imageUrls|, k requires 0 <= k < |page.imageUrls| => Job(page.htmlFile, page.imageUrls[k]))
  }

  /** The (page, URL) pairs in the order the nested loop visits them. */
  function Jobs(pages: seq<PageImages>): (r: seq<Job>)
    ensures forall j :: j in r ==> exists p :: p in pages && j.htmlFile == p.htmlFile && j.imageUrl in p.imageUrls
    ensures forall p, u :: p in pages && u in p.imageUrls ==> Job(p.htmlFile, u) in r
  {
    if |pages| == 0 then []
    else
      var first := PageJobs(pages[0]);
      assert forall u :: u in pages[0].imageUrls ==> Job(pages[0].htmlFile, u) in first;
      assert forall p :: p in pages ==> p == pages[0] || p in pages[1..];
      first + Jobs(pages[1..])
  }

  /** The URLs of a list of jobs. */
  ghost function UrlsOf(jobs: seq<Job>): set<string> {
    set j | j in jobs :: j.imageUrl
  }

  /** Every image URL found on any of the pages. */
  ghost function AllImageUrls(pages: seq<PageImages>): set<string> {
    set p, u | p in pages && u in p.imageUrls :: u
  }

  lemma UrlsOfJobs(pages: seq<PageImages>)
    ensures UrlsOf(Jobs(pages)) == AllImageUrls(pages)
  {
    var jobs := Jobs(pages);
    forall u | u in UrlsOf(jobs)
      ensures u in AllImageUrls(pages)
    {
      var j :| j in jobs && j.imageUrl == u;
      var p :| p in pages && j.htmlFile == p.htmlFile && j.imageUrl in p.imageUrls;
    }
    forall u | u in AllImageUrls(pages)
      ensures u in UrlsOf(jobs)
    {
      var p :| p in pages && u in p.imageUrls;
      assert Job(p.htmlFile, u) in jobs;
    }
  }

  /** One pass of the inner loop body: a URL already recorded is skipped;
      otherwise it is downloaded and, when saved, yields one info entry. */
  function Step(ledger: Ledger, job: Job, attempt: Attempt, hash12: string): (r: (Ledger, seq<ImageInfo>))
    ensures job.imageUrl in ledger.Seen() ==> r == (ledger, [])
    ensures |r.1| <= 1
    ensures job.imageUrl !in ledger.Seen() ==>
      var d := DownloadImage(ledger, job.imageUrl, attempt, hash12);
      && r.0 == d.ledger
      && (|r.1| == 1 <==> d.path.Some?)
      && (d.path.Some? ==>
            && r.1[0].sourceHtml == job.htmlFile
            && r.1[0].imageUrl == job.imageUrl
            && r.1[0].localPath == d.path.value
            && d.path.value == ImagePath(r.1[0].filename))
  {
    var url := job.imageUrl;
    if url in ledger.downloaded || url in ledger.failed then (ledger, [])
    else
      var d := DownloadImage(ledger, url, attempt, hash12);
      match d.path
      case None => (d.ledger, [])
      case Some(path) =>
        var name := ImageFilename(hash12, attempt.stamp, ExtFromContentType(Lower(attempt.response.contentType)));
        (d.ledger, [ImageInfo(job.htmlFile, url, path, name)])
  }

  /** The ledger after the jobs `done` have run from `start`: both sets
      only grew, by exactly the URLs of those jobs, and stayed disjoint. */
  ghost predicate LedgerProgress(start: Ledger, done: seq<Job>, after: Ledger) {
    && start.downloaded <= after.downloaded && start.failed <= after.failed
    && (start.Disjoint() ==> after.Disjoint())
    && after.Seen() == start.Seen() + UrlsOf(done)
  }

  /** The URLs handed to `download_image` while running `done`: each one
      new, none twice, and exactly the new URLs of those jobs. */
  ghost predicate AttemptProgress(start: Ledger, done: seq<Job>, attempted: seq<string>) {
    && (forall k :: 0 <= k < |attempted| ==> attempted[k] !in start.Seen())
    && (forall k, m :: 0 <= k < m < |attempted| ==> attempted[k] != attempted[m])
    && (forall u :: u in attempted <==> u in UrlsOf(done) - start.Seen())
  }

  /** The info list after running `done`: one entry per URL newly
      recorded as downloaded. */
  ghost predicate InfoProgress(start: Ledger, done: seq<Job>, infos: seq<ImageInfo>, after: Ledger) {
    && |infos| == |after.downloaded - start.downloaded|
    && (forall k :: 0 <= k < |infos| ==> infos[k].imageUrl in after.downloaded - start.downloaded)
    && (forall u :: u in after.downloaded - start.downloaded ==> exists k :: 0 <= k < |infos| && infos[k].imageUrl == u)
    && (forall k :: 0 <= k < |infos| ==>
          && Job(infos[k].sourceHtml, infos[k].imageUrl) in done
          && infos[k].localPath == ImagePath(infos[k].filename))
  }

  /** Job `j` of `done` lists `u` on page `html`, and no earlier job lists
      `u`: the first time the nested loop meets the URL. */
  ghost predicate FirstListedAt(done: seq<Job>, j: int, html: string, u: string) {
    0 <= j < |done| && done[j] == Job(html, u) && u !in UrlsOf(done[..j])
  }

  /** Where each info entry comes from: the URL's attempt succeeded, its
      file name is built from that URL's digest, clock reading and content
      type, its path is the one `download_image` returned, and its page is
      the first that lists the URL. */
  ghost predicate InfoOrigins(
    start: Ledger, done: seq<Job>, infos: seq<ImageInfo>, world: string -> Attempt, digest: string -> string)
  {
    forall k :: 0 <= k < |infos| ==>
      var u := infos[k].imageUrl;
      && DownloadImage(start, u, world(u), digest(u)).path == Some(infos[k].localPath)
      && world(u).response.Responded?
      && infos[k].filename == ImageFilename(digest(u), world(u).stamp, ExtFromContentType(Lower(world(u).response.contentType)))
      && exists j :: FirstListedAt(done, j, infos[k].sourceHtml, u)
  }

  /** One more job keeps `InfoOrigins`. */
  lemma OriginsStep(
    start: Ledger, done: seq<Job>, infos: seq<ImageInfo>, after: Ledger, job: Job,
    world: string -> Attempt, digest: string -> string)
    requires LedgerProgress(start, done, after) && InfoOrigins(start, done, infos, world, digest)
    ensures var r := Step(after, job, world(job.imageUrl), digest(job.imageUrl));
      InfoOrigins(start, done + [job], infos + r.1, world, digest)
  {
    var url := job.imageUrl;
    var r := Step(after, job, world(url), digest(url));
    var done' := done + [job];
    var infos' := infos + r.1;
    forall k | 0 <= k < |infos|
      ensures exists j :: FirstListedAt(done', j, infos[k].sourceHtml, infos[k].imageUrl)
    {
      var j :| FirstListedAt(done, j, infos[k].sourceHtml, infos[k].imageUrl);
      assert done'[..j] == done[..j];
      assert FirstListedAt(done', j, infos[k].sourceHtml, infos[k].imageUrl);
    }
    if |r.1| == 1 {
      assert url !in after.Seen();
      assert url !in UrlsOf(done);
      assert done'[..|done|] == done;
      assert FirstListedAt(done', |done|, job.htmlFile, url);
      assert infos'[|infos|] == r.1[0];
    }
    forall k | 0 <= k < |infos'|
      ensures var u := infos'[k].imageUrl;
        && DownloadImage(start, u, world(u), digest(u)).path == Some(infos'[k].localPath)
        && world(u).response.Responded?
        && infos'[k].filename == ImageFilename(digest(u), world(u).stamp, ExtFromContentType(Lower(world(u).response.contentType)))
        && exists j :: FirstListedAt(done', j, infos'[k].sourceHtml, u)
    {
      if k < |infos| {
        assert infos'[k] == infos[k];
      }
    }
  }

  /** The three progress predicates together. */
  ghost predicate Progress(start: Ledger, done: seq<Job>, infos: seq<ImageInfo>, after: Ledger, attempted: seq<string>) {
    && LedgerProgress(start, done, after)
    && AttemptProgress(start, done, attempted)
    && InfoProgress(start, done, infos, after)
  }

  /** Before any job has run nothing has changed. */
  lemma NothingRunYet(start: Ledger)
    ensures Progress(start, [], [], start, [])
  {
    assert UrlsOf([]) == {};
  }

  lemma UrlsOfSnoc(done: seq<Job>, job: Job)
    ensures UrlsOf(done + [job]) == UrlsOf(done) + {job.imageUrl}
  {
    assert forall j :: j in done + [job] <==> j in done || j == job;
  }

  /** One more job keeps `LedgerProgress`. */
  lemma LedgerStep(start: Ledger, done: seq<Job>, after: Ledger, job: Job, attempt: Attempt, hash12: string)
    requires LedgerProgress(start, done, after)
    ensures LedgerProgress(start, done + [job], Step(after, job, attempt, hash12).0)
  {
    UrlsOfSnoc(done, job);
  }

  /** One more job keeps `AttemptProgress`. */
  lemma AttemptStep(start: Ledger, done: seq<Job>, after: Ledger, attempted: seq<string>, job: Job)
    requires LedgerProgress(start, done, after) && AttemptProgress(start, done, attempted)
    ensures AttemptProgress(start, done + [job],
      if job.imageUrl in after.Seen() then attempted else attempted + [job.imageUrl])
  {
    var url := job.imageUrl;
    UrlsOfSnoc(done, job);
    if url in after.Seen() {
      assert url in start.Seen() || url in UrlsOf(done);
    } else {
      var attempted' := attempted + [url];
      assert url !in start.Seen() && url !in UrlsOf(done);
      assert url !in attempted;
      forall k, m | 0 <= k < m < |attempted'|
        ensures attempted'[k] != attempted'[m]
      {
        if m == |attempted| {
          assert attempted'[k] in attempted;
        }
      }
      assert forall u :: u in attempted' <==> u in attempted || u == url;
    }
  }

  /** One more job keeps `InfoProgress`. */
  lemma InfoStep(
    start: Ledger, done: seq<Job>, infos: seq<ImageInfo>, after: Ledger, job: Job, attempt: Attempt, hash12: string)
    requires LedgerProgress(start, done, after) && InfoProgress(start, done, infos, after)
    ensures var r := Step(after, job, attempt, hash12);
      InfoProgress(start, done + [job], infos + r.1, r.0)
  {
    var url := job.imageUrl;
    var r := Step(after, job, attempt, hash12);
    assert forall j :: j in done ==> j in done + [job];
    if url in after.Seen() || DownloadImage(after, url, attempt, hash12).path.None? {
      assert r.1 == [] && r.0.downloaded == after.downloaded;
      assert infos + r.1 == infos;
    } else {
      var d := DownloadImage(after, url, attempt, hash12);
      var info := r.1[0];
      assert r.0 == d.ledger && r.1 == [info];
      assert info.imageUrl == url && info.sourceHtml == job.htmlFile;
      assert info.localPath == ImagePath(info.filename);
      var before := after.downloaded - start.downloaded;
      assert r.0.downloaded - start.downloaded == before + {url};
      assert url !in before;
      NewDownloadExtendsInfos(start, done + [job], infos, after.downloaded, url, info);
    }
  }

  /** Appending the entry for a URL newly downloaded keeps the infos in
      step with the downloaded set. */
  lemma NewDownloadExtendsInfos(
    start: Ledger, done: seq<Job>, infos: seq<ImageInfo>, downloaded: set<string>, url: string, info: ImageInfo)
    requires |infos| == |downloaded - start.downloaded|
    requires forall k :: 0 <= k < |infos| ==> infos[k].imageUrl in downloaded - start.downloaded
    requires forall u :: u in downloaded - start.downloaded ==> exists k :: 0 <= k < |infos| && infos[k].imageUrl == u
    requires forall k :: 0 <= k < |infos| ==>
      Job(infos[k].sourceHtml, infos[k].imageUrl) in done && infos[k].localPath == ImagePath(infos[k].filename)
    requires url !in downloaded - start.downloaded && url !in start.downloaded
    requires info.imageUrl == url && Job(info.sourceHtml, url) in done && info.localPath == ImagePath(info.filename)
    ensures InfoProgress(start, done, infos + [info], Ledger(downloaded + {url}, {}))
  {
    var infos' := infos + [info];
    var before := downloaded - start.downloaded;
    var now := (downloaded + {url}) - start.downloaded;
    assert now == before + {url};
    assert |now| == |before| + 1;
    forall k | 0 <= k < |infos'|
      ensures infos'[k].imageUrl in now
      ensures Job(infos'[k].sourceHtml, infos'[k].imageUrl) in done
      ensures infos'[k].localPath == ImagePath(infos'[k].filename)
    {
      if k < |infos| {
        assert infos'[k] == infos[k];
      }
    }
    EntriesCoverNewUrls(infos, before, info);
  }

  /** Appending an entry for `info.imageUrl` keeps every URL of `before`,
      and adds that one, covered by some entry. */
  lemma EntriesCoverNewUrls(infos: seq<ImageInfo>, before: set<string>, info: ImageInfo)
    requires forall u :: u in before ==> exists k :: 0 <= k < |infos| && infos[k].imageUrl == u
    ensures forall u :: u in before + {info.imageUrl} ==>
      exists k :: 0 <= k < |infos + [info]| && (infos + [info])[k].imageUrl == u
  {
    var infos' := infos + [info];
    forall u | u in before + {info.imageUrl}
      ensures exists k :: 0 <= k < |infos'| && infos'[k].imageUrl == u
    {
      if u == info.imageUrl {
        assert infos'[|infos|].imageUrl == u;
      } else {
        var k :| 0 <= k < |infos| && infos[k].imageUrl == u;
        assert infos'[k].imageUrl == u;
      }
    }
  }

  lemma PrefixSnoc(jobs: seq<Job>, i: nat)
    requires i < |jobs|
    ensures jobs[..i + 1] == jobs[..i] + [jobs[i]]
  {
  }

  /** Job `i` of the nested loop, with its effect on the three progress
      predicates. */
  method RunJob(
    start: Ledger, jobs: seq<Job>, i: nat, infos: seq<ImageInfo>, after: Ledger, ghost attempted: seq<string>,
    world: string -> Attempt, digest: string -> string)
    returns (infos': seq<ImageInfo>, after': Ledger, ghost attempted': seq<string>)
    requires i < |jobs|
    requires Progress(start, jobs[..i], infos, after, attempted)
    requires InfoOrigins(start, jobs[..i], infos, world, digest)
    ensures Progress(start, jobs[..i + 1], infos', after', attempted')
    ensures InfoOrigins(start, jobs[..i + 1], infos', world, digest)
  {
    var job := jobs[i];
    var url := job.imageUrl;
    PrefixSnoc(jobs, i);
    LedgerStep(start, jobs[..i], after, job, world(url), digest(url));
    AttemptStep(start, jobs[..i], after, attempted, job);
    InfoStep(start, jobs[..i], infos, after, job, world(url), digest(url));
    OriginsStep(start, jobs[..i], infos, after, job, world, digest);
    attempted' := if url in after.Seen() then attempted else attempted + [url];
    var r := Step(after, job, world(url), digest(url));
    after', infos' := r.0, infos + r.1;
  }

  /** The nested loop of `extract_and_download_images` over the jobs in
      order. */
  method RunJobs(ledger: Ledger, jobs: seq<Job>, world: string -> Attempt, digest: string -> string)
    returns (infos: seq<ImageInfo>, after: Ledger, ghost attempted: seq<string>)
    ensures Progress(ledger, jobs, infos, after, attempted)
    ensures InfoOrigins(ledger, jobs, infos, world, digest)
  {
    infos, after, attempted := [], ledger, [];
    var i := 0;
    NothingRunYet(ledger);
    assert jobs[..i] == [];
    while i < |jobs|
      invariant 0 <= i <= |jobs|
      invariant Progress(ledger, jobs[..i], infos, after, attempted)
      invariant InfoOrigins(ledger, jobs[..i], infos, world, digest)
    {
      infos, after, attempted := RunJob(ledger, jobs, i, infos, after, attempted, world, digest);
      i := i + 1;
    }
    assert jobs[..i] == jobs;
  }

  /** Once every job has run, the progress predicates say what
      `extract_and_download_images` promises. */
  lemma AllJobsRun(
    ledger: Ledger, pages: seq<PageImages>, infos: seq<ImageInfo>, after: Ledger, attempted: seq<string>)
    requires Progress(ledger, Jobs(pages), infos, after, attempted)
    ensures ledger.downloaded <= after.downloaded && ledger.failed <= after.failed
    ensures ledger.Disjoint() ==> after.Disjoint()
    ensures after.Seen() == ledger.Seen() + AllImageUrls(pages)
    ensures forall k :: 0 <= k < |attempted| ==> attempted[k] !in ledger.Seen()
    ensures forall k, m :: 0 <= k < m < |attempted| ==> attempted[k] != attempted[m]
    ensures forall u :: u in attempted <==> u in AllImageUrls(pages) - ledger.Seen()
    ensures |infos| == |after.downloaded - ledger.downloaded|
    ensures forall k :: 0 <= k < |infos| ==> infos[k].imageUrl in after.downloaded - ledger.downloaded
    ensures forall u :: u in after.downloaded - ledger.downloaded ==> exists k :: 0 <= k < |infos| && infos[k].imageUrl == u
    ensures forall k :: 0 <= k < |infos| ==>
      && Job(infos[k].sourceHtml, infos[k].imageUrl) in Jobs(pages)
      && infos[k].localPath == ImagePath(infos[k].filename)
  {
    UrlsOfJobs(pages);
  }

  /** `extract_and_download_images(html_files)`, given the image URLs each
      page yields: each URL not yet recorded is downloaded once, in page
      order. The ghost `attempted` lists the URLs handed to
      `download_image`, in order. */
  method ExtractAndDownloadImages(
    ledger: Ledger, pages: seq<PageImages>, world: string -> Attempt, digest: string -> string)
    returns (infos: seq<ImageInfo>, after: Ledger, ghost attempted: seq<string>)
    ensures ledger.downloaded <= after.downloaded && ledger.failed <= after.failed
    ensures ledger.Disjoint() ==> after.Disjoint()
    ensures after.Seen() == ledger.Seen() + AllImageUrls(pages)
    ensures forall k :: 0 <= k < |attempted| ==> attempted[k] !in ledger.Seen()
    ensures forall k, m :: 0 <= k < m < |attempted| ==> attempted[k] != attempted[m]
    ensures forall u :: u in attempted <==> u in AllImageUrls(pages) - ledger.Seen()
    ensures |infos| == |after.downloaded - ledger.downloaded|
    ensures forall k :: 0 <= k < |infos| ==> infos[k].imageUrl in after.downloaded - ledger.downloaded
    ensures forall u :: u in after.downloaded - ledger.downloaded ==> exists k :: 0 <= k < |infos| && infos[k].imageUrl == u
    ensures forall k :: 0 <= k < |infos| ==>
      && Job(infos[k].sourceHtml, infos[k].imageUrl) in Jobs(pages)
      && infos[k].localPath == ImagePath(infos[k].filename)
    ensures forall k :: 0 <= k < |infos| ==>
      var u := infos[k].imageUrl;
      && DownloadImage(ledger, u, world(u), digest(u)).path == Some(infos[k].localPath)
      && world(u).response.Responded?
      && infos[k].filename == ImageFilename(digest(u), world(u).stamp, ExtFromContentType(Lower(world(u).response.contentType)))
      && exists j :: FirstListedAt(Jobs(pages), j, infos[k].sourceHtml, u)
  {
    infos, after, attempted := RunJobs(ledger, Jobs(pages), world, digest);
    AllJobsRun(ledger, pages, infos, after, attempted);
  }
}

=== FILE: image_names.dfy ===
/** File names for downloaded images (`_generate_image_filename`):
    `img_<hash>_<timestamp>.<ext>`, where the hash is the first twelve hex
    digits of the URL's MD5 digest and the extension is chosen from the
    response's content type or, without one, from the URL path. The digest,
    the clock and `urlparse(url).path` are parameters here. */
module ImageNames {
  import opened Wrappers
  import opened Text

  /** The only extensions an image file name can carry. */
  datatype ImageExt = Jpg | Png | Gif | Webp | Svg {

    /** The extension as written in the file name. */
    function Name(): string {
      match this
      case Jpg => "jpg"
      case Png => "png"
      case Gif => "gif"
      case Webp => "webp"
      case Svg => "svg"
    }

    /** Position of the extension's test in the source's `if`/`elif` chain. */
    function Rank(): nat {
      match this
      case Jpg => 0
      case Png => 1
      case Gif => 2
      case Webp => 3
      case Svg => 4
    }
  }

  /** The extension's content-type test succeeds on `contentType`. */
  predicate ContentTypeNames(contentType: string, e: ImageExt) {
    match e
    case Jpg => Contains(contentType, "jpeg") || Contains(contentType, "jpg")
    case Png => Contains(contentType, "png")
    case Gif => Contains(contentType, "gif")
    case Webp => Contains(contentType, "webp")
    case Svg => Contains(contentType, "svg")
  }

  /** The extension chosen from a non-empty content type: the tests for
      jpeg/jpg, png, gif, webp and svg are made in that order and the first
      that succeeds wins; `jpg` is the default. */
  function ExtFromContentType(contentType: string): (r: ImageExt)
    ensures r == Jpg || ContentTypeNames(contentType, r)
    ensures (exists e :: ContentTypeNames(contentType, e)) ==> ContentTypeNames(contentType, r)
    ensures forall e :: ContentTypeNames(contentType, e) ==> r.Rank() <= e.Rank()
  {
    if Contains(contentType, "jpeg") || Contains(contentType, "jpg") then Jpg
    else if Contains(contentType, "png") then Png
    else if Contains(contentType, "gif") then Gif
    else if Contains(contentType, "webp") then Webp
    else if Contains(contentType, "svg") then Svg
    else Jpg
  }

  /** The extension's path-suffix test succeeds on the lower-cased path. */
  predicate PathNames(lowerPath: string, e: ImageExt) {
    match e
    case Jpg => EndsWith(lowerPath, ".jpg") || EndsWith(lowerPath, ".jpeg")
    case Png => EndsWith(lowerPath, ".png")
    case Gif => EndsWith(lowerPath, ".gif")
    case Webp => EndsWith(lowerPath, ".webp")
    case Svg => EndsWith(lowerPath, ".svg")
  }

  /** The suffix tests on an already lower-cased path, in the source's
      order: `.jpg`/`.jpeg`, `.png`, `.gif`, `.webp`, `.svg`; `jpg` is the
      default. */
  function ExtFromSuffix(lowerPath: string): (r: ImageExt)
    ensures r == Jpg || PathNames(lowerPath, r)
    ensures (exists e :: PathNames(lowerPath, e)) ==> PathNames(lowerPath, r)
    ensures forall e :: PathNames(lowerPath, e) ==> r.Rank() <= e.Rank()
  {
    if EndsWith(lowerPath, ".jpg") || EndsWith(lowerPath, ".jpeg") then Jpg
    else if EndsWith(lowerPath, ".png") then Png
    else if EndsWith(lowerPath, ".gif") then Gif
    else if EndsWith(lowerPath, ".webp") then Webp
    else if EndsWith(lowerPath, ".svg") then Svg
    else Jpg
  }

  /** The extension chosen from the URL path when there is no content type:
      the path is lower-cased and its suffix tested; the first suffix that
      matches wins, and `jpg` is the default. */
  function ExtFromPath(path: string): (r: ImageExt)
    ensures r == Jpg || PathNames(Lower(path), r)
    ensures (exists e :: PathNames(Lower(path), e)) ==> PathNames(Lower(path), r)
    ensures forall e :: PathNames(Lower(path), e) ==> r.Rank() <= e.Rank()
  {
    ExtFromSuffix(Lower(path))
  }

  /** The extension step of `_generate_image_filename(image_url,
      content_type)`: Python treats both `None` and `""` as "no content
      type". */
  function ExtensionFor(contentType: Option<string>, path: string): (r: ImageExt)
    ensures contentType.Some? && contentType.value != "" ==> r == ExtFromContentType(contentType.value)
    ensures contentType.None? || contentType.value == "" ==> r == ExtFromPath(path)
  {
    match contentType
    case Some(ct) => if ct != "" then ExtFromContentType(ct) else ExtFromPath(path)
    case None => ExtFromPath(path)
  }

  // The example lemmas below take their concrete string as a parameter
  // fixed by `requires`, so that Dafny reasons about its characters rather
  // than unfolding the recursive string predicates on a literal.

  /** With a content type the path is never looked at. */
  lemma ContentTypeOverridesPath(contentType: string, path1: string, path2: string)
    requires contentType != ""
    ensures ExtensionFor(Some(contentType), path1) == ExtensionFor(Some(contentType), path2)
  {
  }

  /** `image/svg+xml` names neither jpeg nor jpg. */
  lemma SvgNamesNoJpeg(ct: string)
    requires ct == "image/svg+xml"
    ensures !ContentTypeNames(ct, Jpg)
  {
    MissingCharNotContained(ct, "jpeg", 'j');
    MissingCharNotContained(ct, "jpg", 'j');
  }

  /** `image/svg+xml` names none of png, gif and webp. */
  lemma SvgNamesNoOther(ct: string)
    requires ct == "image/svg+xml"
    ensures !ContentTypeNames(ct, Png) && !ContentTypeNames(ct, Gif) && !ContentTypeNames(ct, Webp)
  {
    MissingCharNotContained(ct, "png", 'p');
    MissingCharNotContained(ct, "gif", 'f');
    MissingCharNotContained(ct, "webp", 'w');
  }

  /** SVG is recognised inside `image/svg+xml`. */
  lemma SvgContentType(ct: string)
    requires ct == "image/svg+xml"
    ensures ExtFromContentType(ct) == Svg
  {
    SvgNamesNoJpeg(ct);
    SvgNamesNoOther(ct);
    assert OccursAt(ct, "svg", 6);
    ContainsIffOccurs(ct, "svg");
  }

  /** A content type naming both jpeg and png gives `jpg`: the jpeg test
      comes first. */
  lemma JpegBeatsPng(ct: string)
    requires Contains(ct, "jpeg") && Contains(ct, "png")
    ensures ExtFromContentType(ct) == Jpg
  {
  }

  /** `IMAGE/PNG` names none of the extensions: the lower-case tests miss
      every upper-case letter. */
  lemma UpperCaseNamesNone(upper: string)
    requires upper == "IMAGE/PNG"
    ensures forall e :: !ContentTypeNames(upper, e)
  {
    assert forall c :: 'a' <= c <= 'z' ==> c !in upper;
    MissingCharNotContained(upper, "jpeg", 'j');
    MissingCharNotContained(upper, "jpg", 'j');
    MissingCharNotContained(upper, "png", 'p');
    MissingCharNotContained(upper, "gif", 'f');
    MissingCharNotContained(upper, "webp", 'w');
    MissingCharNotContained(upper, "svg", 's');
  }

  /** The content-type tests are case-sensitive. */
  lemma UpperCaseContentType(upper: string)
    requires upper == "IMAGE/PNG"
    ensures ExtFromContentType(upper) == Jpg
  {
    UpperCaseNamesNone(upper);
  }

  /** `image/bmp` names none of jpeg, jpg and png. */
  lemma BmpNamesNoneOfFirst(bmp: string)
    requires bmp == "image/bmp"
    ensures !ContentTypeNames(bmp, Jpg) && !ContentTypeNames(bmp, Png)
  {
    MissingCharNotContained(bmp, "jpeg", 'j');
    MissingCharNotContained(bmp, "jpg", 'j');
    MissingCharNotContained(bmp, "png", 'n');
  }

  /** `image/bmp` names none of gif, webp and svg. */
  lemma BmpNamesNoneOfRest(bmp: string)
    requires bmp == "image/bmp"
    ensures !ContentTypeNames(bmp, Gif) && !ContentTypeNames(bmp, Webp) && !ContentTypeNames(bmp, Svg)
  {
    MissingCharNotContained(bmp, "gif", 'f');
    MissingCharNotContained(bmp, "webp", 'w');
    MissingCharNotContained(bmp, "svg", 's');
  }

  /** A BMP content type falls back to `jpg`. */
  lemma BmpContentType(bmp: string)
    requires bmp == "image/bmp"
    ensures ExtFromContentType(bmp) == Jpg
  {
    BmpNamesNoneOfFirst(bmp);
    BmpNamesNoneOfRest(bmp);
  }

  /** Lower-casing `/a/B.PNG` leaves it ending in `.png`. */
  lemma LowerPngPath(path: string)
    requires path == "/a/B.PNG"
    ensures EndsWith(Lower(path), ".png")
  {
    var p := Lower(path);
    assert p[4] == '.' && p[5] == 'p' && p[6] == 'n' && p[7] == 'g';
    assert p[4..] == ".png";
  }

  /** The path suffix test ignores case. */
  lemma UpperCasePath(path: string)
    requires path == "/a/B.PNG"
    ensures ExtFromPath(path) == Png
  {
    LowerPngPath(path);
    var p := Lower(path);
    assert |p| == 8 && p[3..][0] == 'b' && p[4..][1] == 'p';
  }

  /** The last two characters of a string ending with `e`. */
  lemma EndsWithLastTwo(s: string, e: string)
    requires EndsWith(s, e) && 2 <= |e|
    ensures s[|s| - 1] == e[|e| - 1] && s[|s| - 2] == e[|e| - 2]
  {
    assert s[|s| - |e|..][|e| - 1] == s[|s| - 1];
    assert s[|s| - |e|..][|e| - 2] == s[|s| - 2];
  }

  /** A lower-cased path ending in `.bmp` matches none of the suffix
      tests. */
  lemma BmpSuffixNamesNone(lowerPath: string)
    requires EndsWith(lowerPath, ".bmp")
    ensures forall e :: !PathNames(lowerPath, e)
  {
    EndsWithLastTwo(lowerPath, ".bmp");
    var n := |lowerPath|;
    assert lowerPath[n - 1] == 'p' && lowerPath[n - 2] == 'm';
    if EndsWith(lowerPath, ".jpg") { EndsWithLastTwo(lowerPath, ".jpg"); }
    if EndsWith(lowerPath, ".jpeg") { EndsWithLastTwo(lowerPath, ".jpeg"); }
    if EndsWith(lowerPath, ".png") { EndsWithLastTwo(lowerPath, ".png"); }
    if EndsWith(lowerPath, ".gif") { EndsWithLastTwo(lowerPath, ".gif"); }
    if EndsWith(lowerPath, ".webp") { EndsWithLastTwo(lowerPath, ".webp"); }
    if EndsWith(lowerPath, ".svg") { EndsWithLastTwo(lowerPath, ".svg"); }
  }

  /** A path ending in `.bmp`, in any letter case, gets the default
      `jpg`. */
  lemma BmpPath(path: string)
    requires EndsWith(Lower(path), ".bmp")
    ensures ExtFromPath(path) == Jpg
  {
    BmpSuffixNamesNone(Lower(path));
  }

  /** `_generate_image_filename` with digest prefix `hash12` and clock
      reading `stamp`. */
  function ImageFilename(hash12: string, stamp: string, ext: ImageExt): (r: string)
    ensures StartsWith(r, "img_" + hash12 + "_")
    ensures EndsWith(r, "." + ext.Name())
    ensures |r| == |hash12| + |stamp| + |ext.Name()| + 6
  {
    "img_" + hash12 + "_" + stamp + "." + ext.Name()
  }

  /** The extension written as `s`, if any. */
  function ExtNamed(s: string): (r: Option<ImageExt>)
    ensures r.Some? ==> r.value.Name() == s
  {
    if s == "jpg" then Some(Jpg)
    else if s == "png" then Some(Png)
    else if s == "gif" then Some(Gif)
    else if s == "webp" then Some(Webp)
    else if s == "svg" then Some(Svg)
    else None
  }

  /** The parts of an image file name. */
  datatype ImageNameParts = ImageNameParts(hash12: string, stamp: string, ext: ImageExt)

  /** Reads an image file name back, knowing that the digest prefix has 12
      characters and the timestamp 15. */
  function ParseImageFilename(name: string): Option<ImageNameParts> {
    if |name| < 33 || name[..4] != "img_" || name[16] != '_' || name[32] != '.' then None
    else
      match ExtNamed(name[33..])
      case None => None
      case Some(e) => Some(ImageNameParts(name[4..16], name[17..32], e))
  }

  /** An image file name determines its digest prefix, timestamp and
      extension; in particular it starts with `img_` and the digest, and
      ends with one of the five extensions. */
  lemma ParseImageFilenameRoundTrip(hash12: string, stamp: string, ext: ImageExt)
    requires |hash12| == 12 && |stamp| == 15
    ensures ParseImageFilename(ImageFilename(hash12, stamp, ext))
         == Some(ImageNameParts(hash12, stamp, ext))
  {
    var name := ImageFilename(hash12, stamp, ext);
    assert name[..4] == "img_";
    assert name[4..16] == hash12;
    assert name[17..32] == stamp;
    assert name[33..] == ext.Name();
  }
}

=== FILE: image_urls.dfy ===
/** Which image URLs the scraper keeps (`_is_valid_image_url`) and how
    `extract_image_urls_from_html` makes them absolute and gathers them into
    a set. The HTML parsing that finds the candidate strings and
    `urljoin(base_url, ·)` are parameters here. */
module ImageUrls {
  import opened Wrappers
  import opened Text

  /** The lower-cased URL names a tiny image: `1x1`, `1px` or `pixel`. */
  predicate HasTinyMarker(lower: string) {
    Contains(lower, "1x1") || Contains(lower, "1px") || Contains(lower, "pixel")
  }

  /** The lower-cased URL ends with one of the seven image extensions. */
  predicate HasImageSuffix(lower: string) {
    || EndsWith(lower, ".jpg") || EndsWith(lower, ".jpeg") || EndsWith(lower, ".png")
    || EndsWith(lower, ".gif") || EndsWith(lower, ".webp") || EndsWith(lower, ".svg")
    || EndsWith(lower, ".bmp")
  }

  /** The lower-cased URL holds one of the image keywords. */
  predicate HasImageWord(lower: string) {
    Contains(lower, "image") || Contains(lower, "img") || Contains(lower, "photo") || Contains(lower, "picture")
  }

  /** `_is_valid_image_url`: three rejections (empty, a case-sensitive
      `data:` prefix, a tiny-image marker) are tried before two acceptances
      (an image extension, an image keyword); anything else is rejected. */
  function IsValidImageUrl(url: string): (r: bool)
    ensures url == "" ==> !r
    ensures StartsWith(url, "data:") ==> !r
    ensures HasTinyMarker(Lower(url)) ==> !r
    ensures r ==> HasImageSuffix(Lower(url)) || HasImageWord(Lower(url))
  {
    if url == "" then false
    else if StartsWith(url, "data:") then false
    else if HasTinyMarker(Lower(url)) then false
    else
      var lower := Lower(url);
      if HasImageSuffix(lower) then true
      else if HasImageWord(lower) then true
      else false
  }

  /** Past the rejections, a URL is accepted exactly when its lower-cased
      form has an image extension or an image keyword. */
  lemma AcceptanceAfterRejections(url: string)
    requires url != "" && !StartsWith(url, "data:") && !HasTinyMarker(Lower(url))
    ensures IsValidImageUrl(url) <==> HasImageSuffix(Lower(url)) || HasImageWord(Lower(url))
  {
  }

  /** Apart from the case-sensitive `data:` test, validity does not depend
      on letter case. */
  lemma ValidityIgnoresCase(url: string)
    requires !StartsWith(Lower(url), "data:")
    ensures IsValidImageUrl(Lower(url)) == IsValidImageUrl(url)
  {
    LowerIdempotent(url);
    if StartsWith(url, "data:") {
      LowerKeepsLowercasePrefix(url, "data:");
    }
  }

  // The example lemmas below take their concrete string as a parameter
  // fixed by `requires`, so that Dafny reasons about its characters rather
  // than unfolding the recursive string predicates on a literal.

  /** The lower-cased `DATA:image/png`. */
  lemma LowerOfDataUrl(upper: string, lower: string)
    requires upper == "DATA:image/png" && lower == "data:image/png"
    ensures Lower(upper) == lower
  {
    var l := Lower(upper);
    assert l[0] == 'd' && l[1] == 'a' && l[2] == 't' && l[3] == 'a' && l[4] == ':';
    assert l[5] == 'i' && l[6] == 'm' && l[7] == 'a' && l[8] == 'g' && l[9] == 'e';
    assert l[10] == '/' && l[11] == 'p' && l[12] == 'n' && l[13] == 'g';
  }

  /** `data:image/png` has no tiny-image marker. */
  lemma DataUrlNoTinyMarker(lower: string)
    requires lower == "data:image/png"
    ensures !HasTinyMarker(lower)
  {
    MissingCharNotContained(lower, "1x1", '1');
    MissingCharNotContained(lower, "1px", '1');
    MissingCharNotContained(lower, "pixel", 'x');
  }

  /** `data:image/png` has an image keyword. */
  lemma DataUrlHasImageWord(lower: string)
    requires lower == "data:image/png"
    ensures HasImageWord(lower)
  {
    assert OccursAt(lower, "image", 5);
    ContainsIffOccurs(lower, "image");
  }

  /** The `data:` test is case-sensitive: an upper-case data URL that
      mentions `image` is accepted, its lower-case twin is not. */
  lemma DataPrefixIsCaseSensitive(upper: string, lower: string)
    requires upper == "DATA:image/png" && lower == "data:image/png"
    ensures IsValidImageUrl(upper)
    ensures !IsValidImageUrl(lower)
  {
    LowerOfDataUrl(upper, lower);
    DataUrlNoTinyMarker(lower);
    DataUrlHasImageWord(lower);
    assert upper[..5][0] == 'D';
    AcceptanceAfterRejections(upper);
    assert lower[..5] == "data:";
  }

  /** `https://a.example/1x1.png` has no upper-case letter. */
  lemma PixelUrlIsLowercase(url: string)
    requires url == "https://a.example/1x1.png"
    ensures Lower(url) == url
  {
    LowerOfNoUpper(url);
  }

  /** `https://a.example/1x1.png` names a tiny image and ends in `.png`. */
  lemma PixelUrlMarkers(url: string)
    requires url == "https://a.example/1x1.png"
    ensures Contains(url, "1x1") && EndsWith(url, ".png")
  {
    assert OccursAt(url, "1x1", 18);
    ContainsIffOccurs(url, "1x1");
    assert url[|url| - 4..] == ".png";
  }

  /** The tiny-image rule comes first: a tracking pixel is rejected even
      though it ends in `.png`. */
  lemma TinyMarkerBeatsExtension(url: string)
    requires url == "https://a.example/1x1.png"
    ensures EndsWith(Lower(url), ".png")
    ensures !IsValidImageUrl(url)
  {
    PixelUrlIsLowercase(url);
    PixelUrlMarkers(url);
  }

  /** An absolute URL as the source tests for it (case-sensitively). */
  predicate IsAbsolute(url: string) {
    StartsWith(url, "http://") || StartsWith(url, "https://")
  }

  /** A URL starting with `/` is not absolute. */
  lemma SlashedIsRelative(url: string)
    requires 0 < |url| && url[0] == '/'
    ensures !IsAbsolute(url)
  {
    if StartsWith(url, "http://") { StartsWithChar(url, "http://", 0); }
    if StartsWith(url, "https://") { StartsWithChar(url, "https://", 0); }
  }

  /** How `extract_image_urls_from_html` rewrites a kept candidate:
      a protocol-relative `//host/...` gets `https:` in front, an absolute
      URL is kept, and anything else goes through `join`, which stands for
      `urljoin(base_url, ·)`. */
  function Normalise(join: string -> string, url: string): (r: string)
    ensures IsAbsolute(url) ==> r == url
    ensures StartsWith(url, "//") ==> r == "https:" + url && IsAbsolute(r)
    ensures !StartsWith(url, "//") && !IsAbsolute(url) ==> r == join(url)
  {
    if StartsWith(url, "//") then
      SlashedIsRelative(url);
      assert url[..2] == "//";
      assert ("https:" + url)[..8] == "https://";
      "https:" + url
    else if StartsWith(url, "/") then
      SlashedIsRelative(url);
      join(url)
    else if !IsAbsolute(url) then join(url)
    else url
  }

  /** Normalising twice is normalising once, provided `join` yields an
      absolute URL for this candidate. */
  lemma NormaliseIdempotent(join: string -> string, url: string)
    requires IsAbsolute(join(url))
    ensures IsAbsolute(Normalise(join, url))
    ensures Normalise(join, Normalise(join, url)) == Normalise(join, url)
  {
  }

  /** `https:` in front of a URL adds no tiny-image marker. */
  lemma HttpsAddsNoTinyMarker(lower: string, k: string)
    requires k == "1x1" || k == "1px" || k == "pixel"
    requires Contains("https:" + lower, k)
    ensures Contains(lower, k)
  {
    var p := "https:";
    ContainsIffOccurs(p + lower, k);
    var i :| OccursAt(p + lower, k, i);
    assert (p + lower)[i..i + |k|][0] == k[0] && (p + lower)[i..i + |k|][1] == k[1];
    OccursPastPrefix(p, lower, k, i);
    ContainsIffOccurs(lower, k);
  }

  /** `https:` in front keeps an image extension. */
  lemma HttpsKeepsSuffix(lower: string)
    requires HasImageSuffix(lower)
    ensures HasImageSuffix("https:" + lower)
  {
    var p := "https:";
    if EndsWith(lower, ".jpg") { EndsWithUnderPrefix(p, lower, ".jpg"); }
    else if EndsWith(lower, ".jpeg") { EndsWithUnderPrefix(p, lower, ".jpeg"); }
    else if EndsWith(lower, ".png") { EndsWithUnderPrefix(p, lower, ".png"); }
    else if EndsWith(lower, ".gif") { EndsWithUnderPrefix(p, lower, ".gif"); }
    else if EndsWith(lower, ".webp") { EndsWithUnderPrefix(p, lower, ".webp"); }
    else if EndsWith(lower, ".svg") { EndsWithUnderPrefix(p, lower, ".svg"); }
    else { EndsWithUnderPrefix(p, lower, ".bmp"); }
  }

  /** `https:` in front keeps an image keyword. */
  lemma HttpsKeepsWord(lower: string)
    requires HasImageWord(lower)
    ensures HasImageWord("https:" + lower)
  {
    var p := "https:";
    if Contains(lower, "image") { ContainsUnderPrefix(p, lower, "image"); }
    else if Contains(lower, "img") { ContainsUnderPrefix(p, lower, "img"); }
    else if Contains(lower, "photo") { ContainsUnderPrefix(p, lower, "photo"); }
    else { ContainsUnderPrefix(p, lower, "picture"); }
  }

  /** `https:` in front of a lower-cased URL without a tiny-image marker
      adds none. */
  lemma HttpsKeepsNoTinyMarker(lower: string)
    requires !HasTinyMarker(lower)
    ensures !HasTinyMarker("https:" + lower)
  {
    if Contains("https:" + lower, "1x1") { HttpsAddsNoTinyMarker(lower, "1x1"); }
    if Contains("https:" + lower, "1px") { HttpsAddsNoTinyMarker(lower, "1px"); }
    if Contains("https:" + lower, "pixel") { HttpsAddsNoTinyMarker(lower, "pixel"); }
  }

  /** `https:` in front is already lower-case and is not `data:`. */
  lemma HttpsPrefixed(url: string)
    ensures Lower("https:" + url) == "https:" + Lower(url)
    ensures !StartsWith("https:" + url, "data:")
  {
    var p := "https:";
    LowerAppend(p, url);
    LowerOfNoUpper(p);
    var r := p + url;
    assert r[0] == 'h';
    if StartsWith(r, "data:") { StartsWithChar(r, "data:", 0); }
  }

  /** A valid protocol-relative URL stays valid with `https:` in front. */
  lemma HttpsKeepsValidity(url: string)
    requires IsValidImageUrl(url) && StartsWith(url, "//")
    ensures IsValidImageUrl("https:" + url)
  {
    HttpsPrefixed(url);
    var lower := Lower(url);
    HttpsKeepsNoTinyMarker(lower);
    if HasImageSuffix(lower) {
      HttpsKeepsSuffix(lower);
    } else {
      HttpsKeepsWord(lower);
    }
  }

  /** A valid protocol-relative URL is still valid after `https:` is put
      in front of it, so rewriting never turns a kept candidate into one
      the validity test would refuse. */
  lemma NormalisePreservesValidity(join: string -> string, url: string)
    requires IsValidImageUrl(url) && (StartsWith(url, "//") || IsAbsolute(url))
    ensures IsValidImageUrl(Normalise(join, url))
  {
    if StartsWith(url, "//") {
      HttpsKeepsValidity(url);
    }
  }

  /** An `<img>` tag's `src` and `data-src` attributes; `None` when the
      attribute is absent. */
  datatype ImgTag = ImgTag(src: Option<string>, dataSrc: Option<string>)

  /** The attribute values of one tag in the order the source looks at
      them. */
  function TagValues(tag: ImgTag): seq<string> {
    (if tag.src.Some? then [tag.src.value] else [])
      + (if tag.dataSrc.Some? then [tag.dataSrc.value] else [])
  }

  /** Every candidate string in the order the source examines them: each
      tag's `src` then `data-src`, then the `background-image` URLs found
      in `style` attributes. */
  function Candidates(tags: seq<ImgTag>, backgrounds: seq<string>): (r: seq<string>)
    ensures forall c :: c in backgrounds ==> c in r
    ensures forall t :: t in tags && t.src.Some? ==> t.src.value in r
    ensures forall t :: t in tags && t.dataSrc.Some? ==> t.dataSrc.value in r
    ensures forall c :: c in r ==>
      c in backgrounds || exists t :: t in tags && (t.src == Some(c) || t.dataSrc == Some(c))
  {
    if |tags| == 0 then backgrounds
    else TagValues(tags[0]) + Candidates(tags[1..], backgrounds)
  }

  /** A URL the collection can produce from `candidates`. */
  ghost predicate Collectable(join: string -> string, candidates: seq<string>, u: string) {
    exists c :: c in candidates && IsValidImageUrl(c) && u == Normalise(join, c)
  }

  /** Extending the candidates by one adds exactly that candidate's
      normalised form, when it is valid. */
  lemma CollectableStep(join: string -> string, done: seq<string>, c: string, u: string)
    ensures Collectable(join, done + [c], u)
        <==> Collectable(join, done, u) || (IsValidImageUrl(c) && u == Normalise(join, c))
  {
    if Collectable(join, done + [c], u) {
      var d :| d in done + [c] && IsValidImageUrl(d) && u == Normalise(join, d);
      if d != c {
        assert d in done;
      }
    }
    if Collectable(join, done, u) {
      var d :| d in done && IsValidImageUrl(d) && u == Normalise(join, d);
      assert d in done + [c];
    }
    if IsValidImageUrl(c) && u == Normalise(join, c) {
      assert c in done + [c];
    }
  }

  /** `urls` is exactly what the collection produces from `candidates`. */
  ghost predicate CollectedFrom(join: string -> string, candidates: seq<string>, urls: set<string>) {
    forall u :: u in urls <==> Collectable(join, candidates, u)
  }

  /** Looking at candidate `i` keeps `CollectedFrom`. */
  lemma CollectStep(join: string -> string, candidates: seq<string>, i: nat, urls: set<string>)
    requires i < |candidates| && CollectedFrom(join, candidates[..i], urls)
    ensures var c := candidates[i];
      CollectedFrom(join, candidates[..i + 1], if IsValidImageUrl(c) then urls + {Normalise(join, c)} else urls)
  {
    var c := candidates[i];
    assert candidates[..i + 1] == candidates[..i] + [c];
    forall u
      ensures Collectable(join, candidates[..i + 1], u)
          <==> Collectable(join, candidates[..i], u) || (IsValidImageUrl(c) && u == Normalise(join, c))
    {
      CollectableStep(join, candidates[..i], c, u);
    }
  }

  /** When `join` always gives an absolute URL, everything collected is
      absolute. */
  lemma CollectedAbsolute(join: string -> string, candidates: seq<string>, urls: set<string>)
    requires CollectedFrom(join, candidates, urls)
    requires forall c :: IsAbsolute(join(c))
    ensures forall u :: u in urls ==> IsAbsolute(u)
  {
    forall u | u in urls
      ensures IsAbsolute(u)
    {
      var c :| c in candidates && IsValidImageUrl(c) && u == Normalise(join, c);
    }
  }

  /** The `image_urls` set of `extract_image_urls_from_html`: every valid
      candidate, normalised, without duplicates. */
  method CollectImageUrls(join: string -> string, candidates: seq<string>) returns (urls: set<string>)
    ensures forall u :: u in urls <==> Collectable(join, candidates, u)
    ensures |urls| <= |candidates|
    ensures (forall c :: IsAbsolute(join(c))) ==> forall u :: u in urls ==> IsAbsolute(u)
  {
    urls := {};
    var i := 0;
    while i < |candidates|
      invariant 0 <= i <= |candidates|
      invariant CollectedFrom(join, candidates[..i], urls)
      invariant |urls| <= i
    {
      var c := candidates[i];
      CollectStep(join, candidates, i, urls);
      if IsValidImageUrl(c) {
        urls := urls + {Normalise(join, c)};
      }
      i := i + 1;
    }
    assert candidates[..i] == candidates;
    if forall c :: IsAbsolute(join(c)) {
      CollectedAbsolute(join, candidates, urls);
    }
  }

  /** `extract_image_urls_from_html` on the tags and background URLs of one
      page. */
  method ExtractImageUrls(join: string -> string, tags: seq<ImgTag>, backgrounds: seq<string>)
    returns (urls: set<string>)
    ensures forall u :: u in urls ==> exists c :: c in Candidates(tags, backgrounds) && IsValidImageUrl(c) && u == Normalise(join, c)
    ensures forall t :: t in tags && t.src.Some? && IsValidImageUrl(t.src.value) ==> Normalise(join, t.src.value) in urls
    ensures forall t :: t in tags && t.dataSrc.Some? && IsValidImageUrl(t.dataSrc.value) ==> Normalise(join, t.dataSrc.value) in urls
    ensures forall c :: c in backgrounds && IsValidImageUrl(c) ==> Normalise(join, c) in urls
  {
    urls := CollectImageUrls(join, Candidates(tags, backgrounds));
  }
}

=== FILE: page_names.dfy ===
/** File names for saved HTML pages (`_generate_filename`): the page URL with
    its scheme markers deleted and every character outside `[A-Za-z0-9_-]`
    replaced by `_`, cut to 100 characters, then `_<timestamp>.<extension>`.
    The timestamp is `datetime.now()` printed as `%Y%m%d_%H%M%S`; the clock is
    a parameter here. */
module PageNames {
  import opened Wrappers
  import opened Text

  /** Longest stem kept before the timestamp. */
  const MaxStemLength: nat := 100

  /** Length of a `%Y%m%d_%H%M%S` timestamp for a four-digit year. */
  const StampLength: nat := 15

  /** `re.sub(r'https?://', '', url)`: one left-to-right pass that deletes
      every non-overlapping `https://` or `http://`. Text after a deletion is
      not rescanned together with what came before it. */
  function StripSchemes(url: string): (r: string)
    ensures |r| <= |url|
    ensures forall i :: 0 <= i < |r| ==> r[i] in url
    decreases |url|
  {
    if |url| == 0 then []
    else if StartsWith(url, "https://") then StripSchemes(url[8..])
    else if StartsWith(url, "http://") then StripSchemes(url[7..])
    else [url[0]] + StripSchemes(url[1..])
  }

  /** A string without a colon, or whose first character is not `h`, or
      whose third is not `t`, does not start with a scheme marker. */
  lemma NoSchemeMarker(u: string)
    requires ':' !in u || (0 < |u| && u[0] != 'h') || (3 <= |u| && u[2] != 't')
    ensures !StartsWith(u, "https://") && !StartsWith(u, "http://")
  {
    if 7 <= |u| {
      assert u[..7][0] == u[0] && u[..7][2] == u[2] && u[..7][4] == u[4];
    }
    if 8 <= |u| {
      assert u[..8][0] == u[0] && u[..8][2] == u[2] && u[..8][5] == u[5];
    }
  }

  /** A URL without a colon, or without an `h`, has no scheme marker to
      delete. */
  lemma {:induction false} StripSchemesIdentity(url: string)
    requires ':' !in url || 'h' !in url
    ensures StripSchemes(url) == url
    decreases |url|
  {
    if 0 < |url| {
      assert ':' !in url || url[0] != 'h';
      NoSchemeMarker(url);
      assert url == [url[0]] + url[1..];
      StripSchemesIdentity(url[1..]);
    }
  }

  /** A leading `http://` is deleted. */
  lemma StripLeadingHttp(rest: string)
    ensures StripSchemes("http://" + rest) == StripSchemes(rest)
  {
    var u := "http://" + rest;
    assert u[..7] == "http://";
    if 8 <= |u| {
      assert u[..8][4] == ':';
    }
    assert u[7..] == rest;
  }

  /** A leading `https://` is deleted. */
  lemma StripLeadingHttps(rest: string)
    ensures StripSchemes("https://" + rest) == StripSchemes(rest)
  {
    var u := "https://" + rest;
    assert u[..8] == "https://";
    assert u[8..] == rest;
  }

  /** A first character that does not begin a marker is kept. */
  lemma StripKeepsFirst(u: string)
    requires 3 <= |u| && (u[0] != 'h' || u[2] != 't')
    ensures StripSchemes(u) == [u[0]] + StripSchemes(u[1..])
  {
    NoSchemeMarker(u);
  }

  /** A first character other than `h` is kept. */
  lemma StripKeepsNonH(u: string)
    requires 0 < |u| && u[0] != 'h'
    ensures StripSchemes(u) == [u[0]] + StripSchemes(u[1..])
  {
    NoSchemeMarker(u);
  }

  /** A character missing from `s` is missing from its tail. */
  lemma MissingFromTail(s: string, c: char)
    requires 0 < |s| && c !in s
    ensures c !in s[1..] && s[0] != c
  {
    assert forall d :: d in s[1..] ==> d in s;
  }

  /** Text without an `h` cannot begin a marker, so it survives in front
      of whatever the rest becomes. */
  lemma {:induction false} StripSchemesKeepsHFreePrefix(a: string, b: string)
    requires 'h' !in a
    ensures StripSchemes(a + b) == a + StripSchemes(b)
    decreases |a|
  {
    if a == [] {
      assert a + b == b;
    } else {
      MissingFromTail(a, 'h');
      var u, a' := a + b, a[1..];
      assert u[0] == a[0] && u[1..] == a' + b;
      StripKeepsNonH(u);
      StripSchemesKeepsHFreePrefix(a', b);
      calc {
        StripSchemes(u);
        [a[0]] + StripSchemes(a' + b);
        [a[0]] + (a' + StripSchemes(b));
        { assert a == [a[0]] + a'; }
        a + StripSchemes(b);
      }
    }
  }

  /** The deletion is a single pass: removing an inner marker can join the
      text around it into a new marker, which stays (with `rest == "tp://"`
      the result is `http://` itself). */
  lemma StripSchemesIsOnePass(rest: string)
    requires 'h' !in rest
    ensures StripSchemes("ht" + "http://" + rest) == "ht" + rest
  {
    var tail := "http://" + rest;
    var t1 := "t" + tail;
    var s := "h" + t1;
    assert s == "ht" + "http://" + rest;
    calc {
      StripSchemes(s);
      { assert s[0] == 'h' && s[2] == 'h'; StripKeepsFirst(s); assert s[1..] == t1; }
      [s[0]] + StripSchemes(t1);
      { StripKeepsNonH(t1); assert t1[1..] == tail; }
      [s[0]] + ([t1[0]] + StripSchemes(tail));
      { StripLeadingHttp(rest); StripSchemesIdentity(rest); }
      [s[0]] + ([t1[0]] + rest);
      { assert s[0] == 'h' && t1[0] == 't'; }
      "ht" + rest;
    }
  }

  /** The characters `[A-Za-z0-9_-]` that survive sanitising. */
  predicate IsSafeChar(c: char) {
    ('a' <= c <= 'z') || ('A' <= c <= 'Z') || ('0' <= c <= '9') || c == '_' || c == '-'
  }

  /** `re.sub(r'[^a-zA-Z0-9_-]', '_', s)`: each unsafe character becomes
      one `_`. */
  function Sanitise(s: string): (r: string)
    ensures |r| == |s|
    ensures forall i :: 0 <= i < |s| ==> r[i] == (if IsSafeChar(s[i]) then s[i] else '_')
  {
    if |s| == 0 then [] else [if IsSafeChar(s[0]) then s[0] else '_'] + Sanitise(s[1..])
  }

  /** Sanitising changes nothing in a string that is already safe, and
      every sanitised string is safe, so sanitising twice is sanitising
      once. */
  lemma SanitiseIdempotent(s: string)
    ensures forall i :: 0 <= i < |s| ==> IsSafeChar(Sanitise(s)[i])
    ensures Sanitise(Sanitise(s)) == Sanitise(s)
  {
  }

  /** Sanitising works character by character, so it distributes over
      concatenation. */
  lemma SanitiseAppend(a: string, b: string)
    ensures Sanitise(a + b) == Sanitise(a) + Sanitise(b)
  {
    assert forall k :: 0 <= k < |a| + |b| ==> (a + b)[k] == if k < |a| then a[k] else b[k - |a|];
  }

  /** A string of safe characters is left as it is. */
  lemma SanitiseSafe(s: string)
    requires forall k :: 0 <= k < |s| ==> IsSafeChar(s[k])
    ensures Sanitise(s) == s
  {
  }

  /** The file-name stem of `_generate_filename`: at most 100 characters,
      all of them safe. */
  function Stem(url: string): (r: string)
    ensures |r| <= MaxStemLength
    ensures forall i :: 0 <= i < |r| ==> IsSafeChar(r[i])
  {
    var clean := Sanitise(StripSchemes(url));
    if |clean| > MaxStemLength then clean[..MaxStemLength] else clean
  }

  /** A URL no longer than the limit once its markers are gone is not
      cut. */
  lemma StemOfShort(url: string)
    requires |StripSchemes(url)| <= MaxStemLength
    ensures Stem(url) == Sanitise(StripSchemes(url))
  {
  }

  /** The stem consists of safe characters only, is the sanitised,
      scheme-free URL cut to at most 100 characters, keeps every safe
      character in place and has `_` where the URL had any other. */
  lemma StemShape(url: string)
    ensures var s := StripSchemes(url);
      && |Stem(url)| == (if |s| < MaxStemLength then |s| else MaxStemLength)
      && (forall i :: 0 <= i < |Stem(url)| ==> IsSafeChar(Stem(url)[i]))
      && (forall i :: 0 <= i < |Stem(url)| ==> (IsSafeChar(s[i]) <==> Stem(url)[i] == s[i]))
      && (forall i :: 0 <= i < |Stem(url)| ==> Stem(url)[i] == (if IsSafeChar(s[i]) then s[i] else '_'))
  {
  }

  /** A stem is its own stem: it has no scheme marker, nothing unsafe and
      is short enough. */
  lemma StemIdempotent(url: string)
    ensures Stem(Stem(url)) == Stem(url)
  {
    var st := Stem(url);
    StemShape(url);
    assert forall i :: 0 <= i < |st| ==> st[i] != ':';
    StripSchemesIdentity(st);
    assert Sanitise(st) == st;
  }

  /** URLs without a colon that differ only in which unsafe characters
      they hold share a stem (`a/b` and `a?b` both give `a_b`), so two such
      pages saved within the same second receive the same file name. */
  lemma StemIgnoresWhichUnsafeChar(u: string, v: string)
    requires ':' !in u && ':' !in v && |u| == |v|
    requires forall i :: 0 <= i < |u| ==> u[i] == v[i] || (!IsSafeChar(u[i]) && !IsSafeChar(v[i]))
    ensures Stem(u) == Stem(v)
  {
    StripSchemesIdentity(u);
    StripSchemesIdentity(v);
    assert Sanitise(u) == Sanitise(v);
  }

  /** URLs that lose their markers to a common head followed by different
      safe tails, and are short enough not to be cut, get different
      stems. */
  lemma SharedHeadStemsDiffer(u: string, v: string, head: string, a: string, b: string)
    requires StripSchemes(u) == head + a && StripSchemes(v) == head + b
    requires |head| + |a| <= MaxStemLength && |head| + |b| <= MaxStemLength
    requires forall k :: 0 <= k < |a| ==> IsSafeChar(a[k])
    requires forall k :: 0 <= k < |b| ==> IsSafeChar(b[k])
    requires a != b
    ensures Stem(u) != Stem(v)
  {
    StemOfShort(u);
    StemOfShort(v);
    SanitiseAppend(head, a);
    SanitiseAppend(head, b);
    SanitiseSafe(a);
    SanitiseSafe(b);
    var h := Sanitise(head);
    assert Stem(u)[|h|..] == a;
    assert Stem(v)[|h|..] == b;
  }

  /** `_generate_filename(url, extension)` with the clock reading `stamp`. */
  function PageFilename(url: string, extension: string, stamp: string): (r: string)
    ensures StartsWith(r, Stem(url) + "_")
    ensures EndsWith(r, "." + extension)
    ensures |r| == |Stem(url)| + |stamp| + |extension| + 2
  {
    Stem(url) + "_" + stamp + "." + extension
  }

  /** The shape of `datetime.now().strftime("%Y%m%d_%H%M%S")`: fifteen
      characters, digits except for the `_` between date and time. */
  predicate IsStamp(stamp: string) {
    && |stamp| == StampLength
    && (forall i :: 0 <= i < |stamp| && i != 8 ==> IsDigit(stamp[i]))
    && stamp[8] == '_'
  }

  /** The index of the first `c` in `s`. */
  function FirstIndexOf(s: string, c: char): (r: Option<nat>)
    ensures r.None? <==> c !in s
    ensures r.Some? ==> r.value < |s| && s[r.value] == c && c !in s[..r.value]
  {
    if |s| == 0 then None
    else if s[0] == c then Some(0)
    else
      match FirstIndexOf(s[1..], c)
      case None => None
      case Some(i) => assert s[1..][..i] == s[1..i + 1]; Some(i + 1)
  }

  /** The three parts of a page file name. */
  datatype PageNameParts = PageNameParts(stem: string, stamp: string, extension: string)

  /** Reads a page file name back: the first `.` ends the timestamp, which
      is preceded by `_` and the stem. */
  function SplitPageFilename(name: string): Option<PageNameParts> {
    match FirstIndexOf(name, '.')
    case None => None
    case Some(dot) =>
      if dot < StampLength + 1 || name[dot - StampLength - 1] != '_' then None
      else Some(PageNameParts(name[..dot - StampLength - 1], name[dot - StampLength..dot], name[dot + 1..]))
  }

  /** A stem holds no `.`. */
  lemma NoDotInStem(url: string)
    ensures '.' !in Stem(url)
  {
    StemShape(url);
    assert forall i :: 0 <= i < |Stem(url)| ==> Stem(url)[i] != '.';
  }

  /** An index holding the first `c` is the one `FirstIndexOf` finds. */
  lemma {:induction false} FirstIndexUnique(s: string, c: char, i: nat)
    requires i < |s| && s[i] == c && c !in s[..i]
    ensures FirstIndexOf(s, c) == Some(i)
    decreases i
  {
    if 0 < i {
      assert s[..i][0] == s[0];
      assert s[1..][..i - 1] == s[1..i];
      assert forall d :: d in s[1..i] ==> d in s[..i];
      FirstIndexUnique(s[1..], c, i - 1);
    }
  }

  /** Splitting a name assembled from a dot-free stem, a timestamp and an
      extension gives those three parts back. */
  lemma SplitAssembled(stem: string, stamp: string, extension: string)
    requires '.' !in stem && IsStamp(stamp)
    ensures SplitPageFilename(stem + "_" + stamp + "." + extension)
         == Some(PageNameParts(stem, stamp, extension))
  {
    var head := stem + "_" + stamp;
    var name := head + "." + extension;
    assert forall j :: 0 <= j < |head| ==> head[j] != '.' by {
      forall j | 0 <= j < |head|
        ensures head[j] != '.'
      {
        if j < |stem| {
          assert head[j] == stem[j];
        } else if j > |stem| {
          assert head[j] == stamp[j - |stem| - 1];
        }
      }
    }
    assert name[..|head|] == head;
    FirstIndexUnique(name, '.', |head|);
    assert name[..|head| - StampLength - 1] == stem;
    assert name[|head| - StampLength - 1] == '_';
    assert name[|head| - StampLength..|head|] == stamp;
    assert name[|head| + 1..] == extension;
  }

  /** A page file name determines its stem, timestamp and extension: the
      name is exactly the stem followed by `_`, the timestamp, `.` and the
      extension. */
  lemma SplitPageFilenameRoundTrip(url: string, extension: string, stamp: string)
    requires IsStamp(stamp)
    ensures SplitPageFilename(PageFilename(url, extension, stamp))
         == Some(PageNameParts(Stem(url), stamp, extension))
  {
    NoDotInStem(url);
    SplitAssembled(Stem(url), stamp, extension);
  }

  /** Different stems give different file names for the same timestamp
      and extension, whatever the timestamp: the names share their tail, so
      they differ in length or in the stem they start with. */
  lemma DistinctStemsDistinctNames(u: string, v: string, extension: string, stamp: string)
    requires Stem(u) != Stem(v)
    ensures PageFilename(u, extension, stamp) != PageFilename(v, extension, stamp)
  {
    var a, b := PageFilename(u, extension, stamp), PageFilename(v, extension, stamp);
    if |Stem(u)| == |Stem(v)| {
      var i :| 0 <= i < |Stem(u)| && Stem(u)[i] != Stem(v)[i];
      assert a[i] == Stem(u)[i] && b[i] == Stem(v)[i];
    } else {
      assert |a| != |b|;
    }
  }
}

=== FILE: text.dfy ===
/** The Python string operations the scraper relies on: `startswith`,
    `endswith`, `in`, `lower()` and `str(n)` for a non-negative integer.
    Strings are sequences of Unicode scalar values, one element per Python
    code point. */
module Text {

  /** Python's `s.startswith(p)`. */
  predicate StartsWith(s: string, p: string) {
    |p| <= |s| && s[..|p|] == p
  }

  /** Python's `s.endswith(e)`. */
  predicate EndsWith(s: string, e: string) {
    |e| <= |s| && s[|s| - |e|..] == e
  }

  /** A string starting with `p` agrees with `p` on its first characters. */
  lemma StartsWithChar(s: string, p: string, i: nat)
    requires StartsWith(s, p) && i < |p|
    ensures s[i] == p[i]
  {
    assert s[..|p|][i] == s[i];
  }

  /** `s.startswith(p)` holds exactly when `s` is at least as long as `p`
      and agrees with it character by character. */
  lemma StartsWithIff(s: string, p: string)
    ensures StartsWith(s, p) <==> |p| <= |s| && forall i :: 0 <= i < |p| ==> s[i] == p[i]
  {
    if |p| <= |s| && forall i :: 0 <= i < |p| ==> s[i] == p[i] {
      assert s[..|p|] == p;
    }
    if StartsWith(s, p) {
      forall i | 0 <= i < |p|
        ensures s[i] == p[i]
      {
        StartsWithChar(s, p, i);
      }
    }
  }

  /** `s.endswith(e)` holds exactly when `s` is at least as long as `e`
      and its last characters agree with `e` one by one. */
  lemma EndsWithIff(s: string, e: string)
    ensures EndsWith(s, e) <==>
      |e| <= |s| && forall i :: 0 <= i < |e| ==> s[|s| - |e| + i] == e[i]
  {
    if |e| <= |s| {
      var tail := s[|s| - |e|..];
      assert forall i :: 0 <= i < |e| ==> tail[i] == s[|s| - |e| + i];
      if forall i :: 0 <= i < |e| ==> s[|s| - |e| + i] == e[i] {
        assert tail == e;
      }
    }
  }

  /** `k` occurs in `s` starting at index `i`. */
  predicate OccursAt(s: string, k: string, i: int) {
    0 <= i && i + |k| <= |s| && s[i..i + |k|] == k
  }

  /** Python's `k in s` for strings, as the left-to-right scan that tries
      every starting position. */
  predicate Contains(s: string, k: string)
    decreases |s|
  {
    StartsWith(s, k) || (0 < |s| && Contains(s[1..], k))
  }

  /** The scan finds `k` exactly when `k` occurs at some index of `s`. */
  lemma {:induction false} ContainsIffOccurs(s: string, k: string)
    ensures Contains(s, k) <==> exists i :: OccursAt(s, k, i)
    decreases |s|
  {
    if StartsWith(s, k) {
      assert OccursAt(s, k, 0);
    } else if 0 < |s| {
      ContainsIffOccurs(s[1..], k);
      if Contains(s[1..], k) {
        var i :| OccursAt(s[1..], k, i);
        assert s[1..][i..i + |k|] == s[i + 1..i + 1 + |k|];
        assert OccursAt(s, k, i + 1);
      } else {
        forall i | OccursAt(s, k, i)
          ensures false
        {
          if i != 0 {
            assert s[1..][i - 1..i - 1 + |k|] == s[i..i + |k|];
            assert OccursAt(s[1..], k, i - 1);
          }
        }
      }
    }
  }

  /** An occurrence that starts after the prefix `p` is an occurrence in
      `s` itself. */
  lemma OccursPastPrefix(p: string, s: string, k: string, i: int)
    requires OccursAt(p + s, k, i) && |p| <= i
    ensures OccursAt(s, k, i - |p|)
  {
    assert (p + s)[i..i + |k|] == s[i - |p|..i - |p| + |k|];
  }

  /** Prepending text never removes an occurrence. */
  lemma ContainsUnderPrefix(p: string, s: string, k: string)
    requires Contains(s, k)
    ensures Contains(p + s, k)
  {
    ContainsIffOccurs(s, k);
    var i :| OccursAt(s, k, i);
    assert (p + s)[|p| + i..|p| + i + |k|] == s[i..i + |k|];
    assert OccursAt(p + s, k, |p| + i);
    ContainsIffOccurs(p + s, k);
  }

  /** Prepending text keeps every suffix. */
  lemma EndsWithUnderPrefix(p: string, s: string, e: string)
    requires EndsWith(s, e)
    ensures EndsWith(p + s, e)
  {
    assert (p + s)[|p + s| - |e|..] == s[|s| - |e|..];
  }

  /** A string that lacks one of the characters of `k` cannot contain `k`.
      This is how concrete non-occurrences are established below. */
  lemma {:induction false} MissingCharNotContained(s: string, k: string, c: char)
    requires c in k && c !in s
    ensures !Contains(s, k)
    decreases |s|
  {
    if 0 < |s| {
      assert forall d :: d in s[1..] ==> d in s;
      MissingCharNotContained(s[1..], k, c);
    }
  }

  /** Python's `str.lower()` restricted to ASCII letters. */
  function LowerChar(c: char): char {
    if 'A' <= c <= 'Z' then (c as int + 32) as char else c
  }

  /** Python's `s.lower()`, mapping each character on its own. */
  function Lower(s: string): (r: string)
    ensures |r| == |s|
    ensures forall i :: 0 <= i < |s| ==> r[i] == LowerChar(s[i])
  {
    if |s| == 0 then [] else [LowerChar(s[0])] + Lower(s[1..])
  }

  /** Lowering distributes over concatenation. */
  lemma LowerAppend(a: string, b: string)
    ensures Lower(a + b) == Lower(a) + Lower(b)
  {
    var l, r := Lower(a + b), Lower(a) + Lower(b);
    forall i | 0 <= i < |a + b|
      ensures l[i] == r[i]
    {
      if i < |a| {
        assert (a + b)[i] == a[i];
      } else {
        assert (a + b)[i] == b[i - |a|];
      }
    }
  }

  /** Lowering twice is lowering once. */
  lemma LowerIdempotent(s: string)
    ensures Lower(Lower(s)) == Lower(s)
  {
    assert forall i :: 0 <= i < |s| ==> Lower(Lower(s))[i] == Lower(s)[i];
  }

  /** A string holding no upper-case ASCII letter is its own lower case. */
  lemma LowerOfNoUpper(s: string)
    requires forall c :: 'A' <= c <= 'Z' ==> c !in s
    ensures Lower(s) == s
  {
    assert forall i :: 0 <= i < |s| ==> s[i] in s;
  }

  /** A lower-case prefix of `s` survives lowering. */
  lemma LowerKeepsLowercasePrefix(s: string, p: string)
    requires StartsWith(s, p)
    requires forall i :: 0 <= i < |p| ==> !('A' <= p[i] <= 'Z')
    ensures StartsWith(Lower(s), p)
  {
    assert forall i :: 0 <= i < |p| ==> Lower(s)[i] == p[i];
  }

  /** The decimal digit for `d`. */
  function DigitChar(d: nat): char
    requires d < 10
  {
    ('0' as int + d) as char
  }

  predicate IsDigit(c: char) {
    '0' <= c <= '9'
  }

  /** Python's `str(n)` for a non-negative integer: its decimal digits,
      without leading zeros. */
  function NatToString(n: nat): (r: string)
    ensures 0 < |r|
    ensures forall i :: 0 <= i < |r| ==> IsDigit(r[i])
    ensures 1 < |r| ==> r[0] != '0'
    decreases n
  {
    if n < 10 then [DigitChar(n)] else NatToString(n / 10) + [DigitChar(n % 10)]
  }

  /** Python's `int(s)` for a string of decimal digits. */
  function ParseNat(s: string): nat
    requires forall i :: 0 <= i < |s| ==> IsDigit(s[i])
  {
    if |s| == 0 then 0
    else
      assert IsDigit(s[|s| - 1]);
      ParseNat(s[..|s| - 1]) * 10 + (s[|s| - 1] as int - '0' as int)
  }

  /** Reading the decimal text back gives the number. */
  lemma {:induction false} ParseNatToString(n: nat)
    ensures ParseNat(NatToString(n)) == n
    decreases n
  {
    var r := NatToString(n);
    if n >= 10 {
      ParseNatToString(n / 10);
      assert r[..|r| - 1] == NatToString(n / 10);
    }
  }

  /** Different numbers print differently. */
  lemma NatToStringInjective(m: nat, n: nat)
    requires NatToString(m) == NatToString(n)
    ensures m == n
  {
    ParseNatToString(m);
    ParseNatToString(n);
  }
}

=== FILE: wrappers.dfy ===
/** The Option type used for Python's `None`-or-value results. */
module Wrappers {

  datatype Option<+T> = None | Some(value: T) {

    /** The wrapped value, or `default` for `None`. */
    function GetOr(default: T): T {
      match this
      case Some(v) => v
      case None => default
    }
  }
}
